=== FILE: README.md ===
# COVID-19 database and dashboard, modelled in Dafny

The system builds a small SQLite database from the Johns Hopkins COVID-19
CSV files and serves a dashboard over it. This project models the
table-reshaping core of both halves as Dafny values and functions, and
proves what each step keeps, loses and orders.

- `create_covid_19_db.py` builds the `time_series` table in these steps:
  - it melts the wide confirmed and deaths series (one column per day) into long rows;
  - it parses the `M/D/YY` headers;
  - it renames the vaccine table's key columns and drops two of its columns;
  - it left-merges the three series on (province, country, date);
  - it sums by (country, date) and truncates the dose counts to integers;
  - it writes each date as an RFC 3339 `full-date` (`YYYY-MM-DD`) string.

  It also builds the `daily_report` table by projecting and renaming seven columns of one day's snapshot.
- `app.py` computes the dashboard's values:
  - the headline totals;
  - the default selection of the thirty countries with most confirmed cases;
  - the hover label of each map marker: county if known, else province, else country;
  - the rows behind each country's line charts.

Modules:
- `Wrappers`: Option and Result.
- `Ordering`: Python's string order, and building a sorted list without repeats.
- `Grouping`: keyed sums and their conservation.
- `Ranking`: sorting by non-increasing weight, and keeping the first n.
- `Dates`: the `%m/%d/%y` parser and the `%Y-%m-%d` writer.
- `Frames`: pandas' rename, drop, column selection and column assignment on labelled tables.
- `Melt`, `Merge`, `Aggregate`: the three big pandas steps.
- `CreateCovid19DB`: the pipeline.
- `Dashboard`: `app.py`.

The pipeline's pandas errors are values: `KeyError`, the length mismatch of
`df.columns = ...`, and the date-parse error. Each function returns the
first of these errors the source would raise. Four other errors are not
modelled, and on those inputs the model carries on where pandas stops; see
"## Left out":
- the melt KeyError for a missing id column;
- the object/float64 merge ValueError on `Province/State`;
- the `to_datetime` error on an unparseable vaccine date;
- the TypeError or ValueError from `Doses_admin` text that is not an integer literal. Integer-literal text is summed differently rather than rejected.

The deaths series is dated from the confirmed series by row position
(create_covid_19_db.py:28). Its own column headers are not parsed.
`DeathsDatedByOwnHeader` proves that this gives every deaths row its own
header's date when both files have the same rows and date columns.
`DeathsMisdatedWhenLayoutsDiffer` proves that it does not in the
one-province/two-province case: when the confirmed file has one province,
the deaths file two, and the first two headers are different days, the
second province's first-day row gets the second day's date.

## Model

| member | source | states |
|---|---|---|
| Melt.Melt | create_covid_19_db.py:23-24 | Every long row is dated by one of the wide table's date headers |
| Melt.MeltLength | create_covid_19_db.py:22-24 | Melting R rows with D date columns gives exactly D·R long rows |
| Melt.MeltAt | create_covid_19_db.py:22-24 | Long row j·R+i is wide row i under date column j: its province, country, lat, long, column j's header and cell j, so rows are grouped by date column in column order |
| Melt.MeltSameLayout | create_covid_19_db.py:23-24 | Two wide tables with the same row count and headers melt into the same date at every position |
| Dates.ParseHeader | create_covid_19_db.py:27 | A header that `%m/%d/%y` accepts denotes a valid calendar date in 1969-2068 |
| Dates.HeaderRoundTrip | create_covid_19_db.py:27 | Every valid date in 1969-2068, written `M/D/YY` as the source files do, parses back to itself |
| CreateCovid19DB.ParseConfirmed | create_covid_19_db.py:27-31 | Parsing succeeds iff every header parses, and otherwise the error names a header that does not. On success there is one keyed row per melted row, in order, keyed by (province, country, parsed date), with its count and without Lat/Long |
| CreateCovid19DB.AlignDeaths | create_covid_19_db.py:28-32 | Deaths row i carries the date of confirmed row i and its own count; past the confirmed table's end it has no date and matches nothing |
| CreateCovid19DB.DeathsDatedByOwnHeader | create_covid_19_db.py:28 | With the same layout, every deaths row's date is its own header's date |
| CreateCovid19DB.DeathsMisdatedWhenLayoutsDiffer | create_covid_19_db.py:28 | With one confirmed province, two deaths provinces and first two headers on different days, the second province's first-day row is dated with the confirmed file's second date, which differs from the date its own header gives |
| Frames.Rename | create_covid_19_db.py:37 | Renaming changes only the labels the mapping names and keeps the rows |
| Frames.Drop | create_covid_19_db.py:40 | Drop raises a KeyError iff a label is missing, and the error names a missing label. Otherwise it removes exactly the labelled columns, keeps the other columns and their cells in order, and keeps every row |
| CreateCovid19DB.NormaliseVaccine | create_covid_19_db.py:34-40 | KeyError iff Province_State, Date, UID or People_at_least_one_dose is missing. Otherwise every column except UID and People_at_least_one_dose is kept, in order, with its cells. Only Province_State and Country_Region change name. Every row stays |
| CreateCovid19DB.VaccineKeyed | create_covid_19_db.py:43-50 | KeyError iff a join key or Doses_admin is missing or a Confirmed/Deaths column would collide in the merge. Otherwise one keyed entry per vaccine row |
| Merge.LeftMerge | create_covid_19_db.py:44-45 | A left merge never has fewer rows than its left table |
| Merge.LeftMergeKeys | create_covid_19_db.py:44-45 | The merged table has exactly the left table's keys: every left row survives, and right-only keys are dropped |
| Merge.LeftMergeUnique | create_covid_19_db.py:44-45 | When the right table has at most one row per key, row i of the merge is left row i paired with the right value under its key, or with null when no right row has it |
| Merge.LookupMeaning | create_covid_19_db.py:44-45 | The value found under a key is null iff no right row has that key, and otherwise it is a right row's value under that key |
| CreateCovid19DB.Flatten | create_covid_19_db.py:45 | One merged row per merge result, with its key, confirmed and deaths, and the doses the vaccine table gave, null when there was no vaccine row or its cell was null |
| CreateCovid19DB.MergeKeepsConfirmedRows | create_covid_19_db.py:44-45 | With unique right keys, the twice-merged table is the confirmed table row for row, with the deaths found under each key and the doses value found under it, or null |
| CreateCovid19DB.MergedTable | create_covid_19_db.py:27-45 | Succeeds iff the confirmed headers parse and the vaccine table normalises and keys. Every merged row's key is a key of the parsed confirmed table, so it carries a full date |
| Aggregate.GroupSum | create_covid_19_db.py:47-50 | The output is strictly ascending by (country, date), so each pair appears once. Its key set equals the merged table's. Each metric equals the sum over that group's rows, with null counted as 0 |
| Aggregate.GroupSumConserves | create_covid_19_db.py:50 | Grouping keeps the total confirmed and the total deaths |
| Aggregate.GroupSumSingleRow | create_covid_19_db.py:50 | A key held by only one merged row is output with exactly that row's counts |
| CreateCovid19DB.Trunc | create_covid_19_db.py:54 | `astype(int)` truncates toward zero: the result lies within 1 of the value, on the side of zero |
| CreateCovid19DB.ToTimeSeries | create_covid_19_db.py:51-54 | The columns are renamed to the stored schema, and doses are truncated row by row |
| CreateCovid19DB.GroupedSeries | create_covid_19_db.py:47-54 | Grouping then renaming and casting gives rows strictly ascending by (country, date) with exactly the merged table's (country, date) pairs. Each row's confirmed and deaths are its group's sums, and its doses are the truncated group sum |
| CreateCovid19DB.CreateTimeSeries | create_covid_19_db.py:12-56 | Succeeds exactly when the merged table can be built. Rows are strictly ascending by (country, date), so no pair repeats. Every date is a full date, and the (country, date) pairs are exactly the merged table's. Confirmed and deaths are the group sums, and doses the truncated group sum |
| CreateCovid19DB.TimeSeriesKeepsConfirmedTotal | create_covid_19_db.py:22-54 | When deaths and vaccine keys are unique, the confirmed column of `time_series` adds up to the sum of every cell of the confirmed file |
| Dates.FormatIso | create_covid_19_db.py:81 | `%Y-%m-%d` gives 10 characters with dashes at positions 4 and 7 |
| Dates.IsoRoundTrip | create_covid_19_db.py:78-81 | A formatted full date parses back to itself |
| Dates.IsoCanonical | create_covid_19_db.py:78-81 | A string that parses as a full date is the formatting of that date |
| Dates.IsoOrder | create_covid_19_db.py:78-81 | For 4-digit years, string order of formatted dates equals chronological order |
| CreateCovid19DB.FormatDates | create_covid_19_db.py:81 | Each row's date is replaced by its formatted string; nothing else changes |
| CreateCovid19DB.FormatDatesKeepsOrder | create_covid_19_db.py:78-81 | The stored rows stay ascending by (country, date string) |
| Frames.Select | create_covid_19_db.py:65 | KeyError iff a requested label is missing. Otherwise the columns are exactly the requested ones, in that order, each with its cells, and every row is kept |
| Frames.SetColumns | create_covid_19_db.py:66 | Assigning column names raises a length mismatch iff the count differs, and otherwise relabels without touching the rows |
| CreateCovid19DB.CreateDailyReport | create_covid_19_db.py:59-68 | KeyError iff one of the seven snapshot columns is missing. Otherwise the result has row count and order unchanged, columns `country … longitude`, and column k holding snapshot column k's cells |
| CreateCovid19DB.StoredSeriesWellOrdered | create_covid_19_db.py:76-81 | The stored series is ascending by (country, date string), holds no (country, date) pair twice, and every date reads back |
| CreateCovid19DB.CreateDatabase | create_covid_19_db.py:71-83 | Succeeds iff both tables can be built. The stored series is the time series with formatted dates: ascending with unique (country, reported_on), and every reported_on is a 10-character date that parses. The second table is the daily report |
| Dashboard.TotalCases | app.py:16 | The total cases equal the per-country confirmed sums of `groupby("country")` added up |
| Dashboard.TotalDeaths | app.py:17 | The total deaths equal the per-country death sums added up |
| Dashboard.TotalVaccinated | app.py:20-21 | The vaccinated total is the doses summed over exactly the rows whose reported_on is "2023-03-09" |
| Dashboard.Countries | app.py:28 | The group keys are the snapshot's countries, each once, ascending |
| Dashboard.RankedCountries | app.py:28 | The sorted ranking holds every country of the snapshot once, by non-increasing total |
| Dashboard.TopConfirmed | app.py:28-29 | The default selection holds at most 30 names, each a country of the snapshot |
| Dashboard.TopConfirmedSelection | app.py:28-29 | The default selection holds min(30, number of countries) distinct snapshot countries, with totals non-increasing, and no omitted country has a larger total than a kept one |
| Ranking.SortDescending | app.py:28 | Sorting is a permutation |
| Ranking.SortDescendingSorted | app.py:28 | The sorted sequence has non-increasing weights |
| Ranking.TopKeepsHeaviest | app.py:29 | Taking the first n of a sorted, repeat-free sequence leaves out nothing heavier than what it keeps |
| Dashboard.Filter | app.py:42 | A boolean-mask selection keeps exactly the rows that satisfy the mask |
| Dashboard.FilterAppend | app.py:42 | Selection distributes over concatenation, so it keeps rows in their original order |
| Dashboard.FilterIdempotent | app.py:42 | Selecting twice with the same mask is selecting once |
| Dashboard.FilterKeepsOrder | app.py:149 | Any order relation between earlier and later rows survives selection |
| Dashboard.FilterByCountries | app.py:42 | A row is selected iff it is a daily_report row whose country is among the chosen names |
| Dashboard.LocationOf | app.py:57-63 | The label names county, province and country exactly as the row has them: county when present, else province, else the country alone |
| Dashboard.HoverOf | app.py:57-65 | A marker's hover data names the row's country, province and county and carries its confirmed and death counts |
| Dashboard.LabelsAreCanonical | app.py:57-63 | Labels and (country, province, county) triples correspond one to one |
| Dashboard.FilterGlobalMap | app.py:42-65 | One hover entry per selected row, in row order. Each entry is the row's label with its confirmed and deaths counts, and names a chosen country |
| Dates.ParseIso | app.py:25 | A string accepted as `YYYY-MM-DD` denotes a valid full date |
| Dashboard.ParseStoredDates | app.py:25 | Re-parsing the stored dates succeeds iff every string is a full date, and then changes only the date column |
| Dashboard.StoredDatesRoundTrip | app.py:25 | Reading back what the pipeline stored gives the dates it wrote |
| Dashboard.FilterTimeSeries | app.py:148-150 | The same table three times, holding exactly the rows of the chosen country |
| Dashboard.ChartDatesIncrease | app.py:148-150 | On a series in (country, date) order, each chart's dates strictly increase |
| Dashboard.StoredSeriesCharts | app.py:148-150 | The series the pipeline stores reads back and charts in strictly increasing date order |

## Left out

- Reading the CSV files and reading and writing SQLite are not modelled (create_covid_19_db.py:18-20,64,85-88; app.py:10-13). The tables are values handed to the functions and returned by them.
- The inferred-format `pd.to_datetime` on the vaccine dates (create_covid_19_db.py:35) is not modelled. Those cells are taken as already parsed. On a date string it cannot parse, pandas stops with an error. The model does not stop: that row matches no key.
- `astype(object)` on the vaccine province column (create_covid_19_db.py:34) is not modelled. Only its KeyError is kept.
- `Dates.ParseHeader` accepts ASCII digits only. strptime's `\d` also matches non-ASCII decimal digits; that is not modelled, and the source files' headers never use them.
- `pd.melt`'s KeyError when a wide file lacks one of the four id columns (create_covid_19_db.py:23-24) is not modelled. A `WideTable` always has them.
- pandas' merge ValueError when the `Province/State` keys are object on one side and float64 on the other (create_covid_19_db.py:44-45) is not modelled. This happens when the column of one file is empty throughout. Keys are compared as optional strings on both sides.
- Dose counts are exact reals, summed exactly and then truncated. Floating-point rounding and int64 overflow are not modelled, and all integer columns are unbounded.
- Stored deaths are integers in the model. When some confirmed row finds no deaths row, the merge makes the deaths column float, and the cast at line 54 touches only `doses_administered`, so the database stores e.g. `12.0`. When every row matches, the column stays integer.
- `CreateCovid19DB.DosesOfCell` reads every text `Doses_admin` cell as null, which counts as 0. This includes text that is a plain integer. pandas reads the whole column as strings as soon as one cell anywhere in the vaccine file is not numeric, and then it differs in three ways:
  - If every cell of a group is integer-literal text, the object `.sum()` at line 50 joins the strings end to end. The `astype(int)` at line 54 then parses the result without error: "3301" stores 3301, and "12" with "34" stores 1234.
  - If a group's joined text is not an integer literal, line 54 raises a ValueError.
  - If a group mixes text and numbers, line 50 raises a TypeError.

  The model stores 0 for the text cells in every case and never stops.
- Latitude and longitude are opaque cells. They are carried through and never reasoned about.
- `Dashboard.TopConfirmed`: pandas' `sort_values` is an unstable quicksort. The model uses a stable insertion sort, so the order among equal totals may differ. Everything `TopConfirmedSelection` states holds for any such order.
- The map figure, marker sizes and `sizeref`, the Gradio tabs, dropdowns and buttons (app.py:69-194), and the two proof-of-concept scripts are not modelled. They are rendering and UI.
- `CreateCovid19DB.TimeSeriesKeepsConfirmedTotal` and `Merge.LeftMergeUnique`: row counts and totals are proved only when the right tables have at most one row per key. With duplicate keys the merge multiplies rows, and the general merge is modelled but no count is claimed for it.
- `Dashboard.TotalCases` and `Dashboard.TotalDeaths`: pandas skips NaN in these sums. The model's counts are never null.
- `Dashboard.ParseStoredDates` is the strict `YYYY-MM-DD` parse. pandas' `to_datetime` at app.py:25 infers the format; it agrees on the strings the pipeline writes, which is all the model claims.
- `Dashboard.StoredSeriesCharts` takes the rows `SELECT *` returns (app.py:12) in the order `to_sql` wrote them. SQLite does not promise that order without `ORDER BY`.

=== FILE: aggregate.dfy ===
/**
 * `time_series.drop(["Province/State"], axis=1)
 *   .groupby(["Country/Region", "Date"])[["Confirmed", "Deaths", "Doses_admin"]]
 *   .sum().reset_index()`:
 * one row per (country, date) present in the merged table, ascending by
 * country and then by date, each metric summed over the provinces with
 * nulls counted as 0.
 */
module Aggregate {
  import opened Wrappers
  import opened Ordering
  import opened Grouping
  import opened Dates
  import opened Merge

  /** A row of the twice-merged table; a null is `None`. */
  datatype MergedRow = MergedRow(key: Key, confirmed: int, deaths: Option<int>, doses: Option<real>)

  /** The group key once the province is dropped. */
  datatype GroupKey = GroupKey(country: string, date: Date)

  function GroupKeyOf(r: MergedRow): GroupKey
  {
    GroupKey(r.key.country, r.key.date)
  }

  function ConfirmedOf(r: MergedRow): int
  {
    r.confirmed
  }

  /** A null death count adds nothing to a sum. */
  function DeathsOf(r: MergedRow): int
  {
    if r.deaths.Some? then r.deaths.value else 0
  }

  /** A null dose count adds nothing to a sum. */
  function DosesOf(r: MergedRow): real
  {
    if r.doses.Some? then r.doses.value else 0.0
  }

  /** The order of the group index: by country as Python compares strings, then by date. */
  predicate GroupLess(a: GroupKey, b: GroupKey)
  {
    LexLess(a.country, b.country) || (a.country == b.country && Before(a.date, b.date))
  }

  lemma GroupLessIsStrictTotalOrder()
    ensures StrictTotalOrder(GroupLess)
  {
    LexLessIsStrictTotalOrder();
    BeforeIsStrictTotalOrder();
    forall a, b, c | GroupLess(a, b) && GroupLess(b, c) ensures GroupLess(a, c) {
      if LexLess(a.country, b.country) && LexLess(b.country, c.country) {
        LexLessTransitive(a.country, b.country, c.country);
      }
    }
    forall a ensures !GroupLess(a, a) {
      LexLessIrreflexive(a.country);
    }
    forall a, b ensures a == b || GroupLess(a, b) || GroupLess(b, a) {
      LexLessTotal(a.country, b.country);
    }
  }

  /** The sum of the doses of the rows with key `k` (a float64 sum in pandas). */
  function DosesSum(rows: seq<MergedRow>, k: GroupKey): real
  {
    if rows == [] then 0.0
    else (if GroupKeyOf(rows[0]) == k then DosesOf(rows[0]) else 0.0) + DosesSum(rows[1..], k)
  }

  /** A row of the grouped table, before the columns are renamed and the doses cast. */
  datatype GroupedRow = GroupedRow(country: string, date: Date, confirmed: int, deaths: int, doses: real)

  function GroupedKey(g: GroupedRow): GroupKey
  {
    GroupKey(g.country, g.date)
  }

  function GroupedConfirmed(g: GroupedRow): int
  {
    g.confirmed
  }

  function GroupedDeaths(g: GroupedRow): int
  {
    g.deaths
  }

  /** The distinct group keys of the merged table, in the group index's order. */
  function GroupKeys(rows: seq<MergedRow>): seq<GroupKey>
  {
    SortedDistinct(seq(|rows|, n requires 0 <= n < |rows| => GroupKeyOf(rows[n])), GroupLess)
  }

  /** The sums of one group. */
  function Summarise(rows: seq<MergedRow>, k: GroupKey): GroupedRow
  {
    GroupedRow(k.country, k.date,
               SumWhere(rows, GroupKeyOf, ConfirmedOf, k),
               SumWhere(rows, GroupKeyOf, DeathsOf, k),
               DosesSum(rows, k))
  }

  function SummariseAll(rows: seq<MergedRow>, ks: seq<GroupKey>): (r: seq<GroupedRow>)
    ensures |r| == |ks|
    ensures forall i :: 0 <= i < |ks| ==> r[i] == Summarise(rows, ks[i])
  {
    if ks == [] then [] else [Summarise(rows, ks[0])] + SummariseAll(rows, ks[1..])
  }

  /** The key set of a grouped table. */
  function GroupedKeys(r: seq<GroupedRow>): set<GroupKey>
  {
    set i | 0 <= i < |r| :: GroupedKey(r[i])
  }

  /** The key set of a merged table. */
  function MergedKeys(rows: seq<MergedRow>): set<GroupKey>
  {
    set n | 0 <= n < |rows| :: GroupKeyOf(rows[n])
  }

  /** The summaries of the sorted distinct keys carry exactly the keys of the merged rows. */
  lemma SummariseAllKeys(rows: seq<MergedRow>)
    ensures GroupedKeys(SummariseAll(rows, GroupKeys(rows))) == MergedKeys(rows)
  {
    var ks := GroupKeys(rows);
    var r := SummariseAll(rows, ks);
    var all := seq(|rows|, n requires 0 <= n < |rows| => GroupKeyOf(rows[n]));
    assert ks == SortedDistinct(all, GroupLess);
    forall k | k in MergedKeys(rows) ensures k in GroupedKeys(r) {
      var n :| 0 <= n < |rows| && GroupKeyOf(rows[n]) == k;
      assert all[n] == k && k in all && k in ks;
      var i :| 0 <= i < |ks| && ks[i] == k;
      assert GroupedKey(r[i]) == k;
    }
    forall k | k in GroupedKeys(r) ensures k in MergedKeys(rows) {
      var i :| 0 <= i < |r| && GroupedKey(r[i]) == k;
      assert ks[i] in ks && k in all;
      var n :| 0 <= n < |all| && all[n] == k;
      assert GroupKeyOf(rows[n]) == k;
    }
  }

  /**
   * The group-sum: each (country, date) of the merged table exactly once,
   * ascending, no other; each metric is the sum over that group's rows.
   */
  function GroupSum(rows: seq<MergedRow>): (r: seq<GroupedRow>)
    ensures forall i, j :: 0 <= i < j < |r| ==> GroupLess(GroupedKey(r[i]), GroupedKey(r[j]))
    ensures GroupedKeys(r) == MergedKeys(rows)
    ensures forall i :: 0 <= i < |r| ==>
      && r[i].confirmed == SumWhere(rows, GroupKeyOf, ConfirmedOf, GroupedKey(r[i]))
      && r[i].deaths == SumWhere(rows, GroupKeyOf, DeathsOf, GroupedKey(r[i]))
      && r[i].doses == DosesSum(rows, GroupedKey(r[i]))
  {
    var ks := GroupKeys(rows);
    GroupLessIsStrictTotalOrder();
    SortedDistinctSorted(seq(|rows|, n requires 0 <= n < |rows| => GroupKeyOf(rows[n])), GroupLess);
    var r := SummariseAll(rows, ks);
    assert forall i :: 0 <= i < |r| ==> GroupedKey(r[i]) == ks[i];
    SummariseAllKeys(rows);
    r
  }

  /** Each (country, date) appears once in the grouped table. */
  lemma GroupSumUniqueKeys(rows: seq<MergedRow>)
    ensures forall i, j :: 0 <= i < j < |GroupSum(rows)| ==> GroupedKey(GroupSum(rows)[i]) != GroupedKey(GroupSum(rows)[j])
  {
    GroupLessIsStrictTotalOrder();
    var r := GroupSum(rows);
    forall i, j | 0 <= i < j < |r| ensures GroupedKey(r[i]) != GroupedKey(r[j]) {
      assert GroupLess(GroupedKey(r[i]), GroupedKey(r[j]));
    }
  }

  lemma {:induction false} TotalOfSummaries(rows: seq<MergedRow>, ks: seq<GroupKey>)
    ensures Total(SummariseAll(rows, ks), GroupedConfirmed) == SumEach(ks, rows, GroupKeyOf, ConfirmedOf)
    ensures Total(SummariseAll(rows, ks), GroupedDeaths) == SumEach(ks, rows, GroupKeyOf, DeathsOf)
  {
    if ks != [] {
      TotalOfSummaries(rows, ks[1..]);
      assert SummariseAll(rows, ks)[1..] == SummariseAll(rows, ks[1..]);
    }
  }

  /**
   * Grouping loses and duplicates nothing: the confirmed and deaths columns
   * of the grouped table add up to the totals of the merged table.
   */
  lemma GroupSumConserves(rows: seq<MergedRow>)
    ensures Total(GroupSum(rows), GroupedConfirmed) == Total(rows, ConfirmedOf)
    ensures Total(GroupSum(rows), GroupedDeaths) == Total(rows, DeathsOf)
  {
    var ks := GroupKeys(rows);
    var all := seq(|rows|, n requires 0 <= n < |rows| => GroupKeyOf(rows[n]));
    GroupLessIsStrictTotalOrder();
    SortedDistinctSorted(all, GroupLess);
    SortedIsDistinct(ks, GroupLess);
    forall n | 0 <= n < |rows| ensures GroupKeyOf(rows[n]) in ks {
      assert all[n] in all;
    }
    assert GroupSum(rows) == SummariseAll(rows, ks);
    TotalOfSummaries(rows, ks);
    Conservation(ks, rows, GroupKeyOf, ConfirmedOf);
    Conservation(ks, rows, GroupKeyOf, DeathsOf);
  }

  /**
   * A (country, date) that only one merged row carries, a country without
   * provinces, keeps that row's confirmed and death counts.
   */
  lemma GroupSumSingleRow(rows: seq<MergedRow>, n: nat)
    requires n < |rows|
    requires forall m :: 0 <= m < |rows| && m != n ==> GroupKeyOf(rows[m]) != GroupKeyOf(rows[n])
    ensures exists i :: 0 <= i < |GroupSum(rows)| && GroupedKey(GroupSum(rows)[i]) == GroupKeyOf(rows[n])
    ensures forall i :: 0 <= i < |GroupSum(rows)| && GroupedKey(GroupSum(rows)[i]) == GroupKeyOf(rows[n]) ==>
      GroupSum(rows)[i].confirmed == rows[n].confirmed && GroupSum(rows)[i].deaths == DeathsOf(rows[n])
  {
    var r := GroupSum(rows);
    assert GroupKeyOf(rows[n]) in MergedKeys(rows);
    SumWhereSingle(rows, GroupKeyOf, ConfirmedOf, n);
    SumWhereSingle(rows, GroupKeyOf, DeathsOf, n);
  }
}

=== FILE: covid_db.dfy ===
/**
 * The `CreateCovid19DB` pipeline: the confirmed, deaths and vaccine time
 * series become the `time_series` table (country, reported_on, confirmed,
 * deaths, doses_administered), and the single-day snapshot becomes the
 * `daily_report` table. File reading and the SQLite writes are not part of
 * the model: the tables are handed over and returned as values.
 */
module CreateCovid19DB {
  import opened Wrappers
  import opened Ordering
  import opened Grouping
  import opened Dates
  import opened Frames
  import opened Melt
  import opened Merge
  import opened Aggregate

  /**
   * A row of `time_series`: `reported_on` is a date until it is written as
   * a `YYYY-MM-DD` string for storage.
   */
  datatype TimeSeriesRow<D> = TimeSeriesRow(country: string, reportedOn: D, confirmed: int, deaths: int, dosesAdministered: int)

  // -------------------------------------------------------------------
  // The confirmed and deaths series

  /**
   * Parsing the melted confirmed table's `Date` column with `%m/%d/%y`
   * and dropping `Lat` and `Long`: a row per melted row, keyed by
   * (province, country, date), or the error for the first header that
   * does not parse.
   */
  function ParseConfirmed(rows: seq<LongRow>): (r: Result<seq<Anchored<int>>, Error>)
    ensures r.Ok? <==> forall i :: 0 <= i < |rows| ==> ParseHeader(rows[i].date).Some?
    ensures r.Err? ==> exists i :: 0 <= i < |rows| && ParseHeader(rows[i].date).None? && r.error == ParseError(rows[i].date)
    ensures r.Ok? ==> |r.value| == |rows| && forall i :: 0 <= i < |rows| ==>
      r.value[i] == Anchored(Key(rows[i].province, rows[i].country, ParseHeader(rows[i].date).value), rows[i].value)
  {
    if rows == [] then Ok([])
    else
      match ParseHeader(rows[0].date)
      case None => Err(ParseError(rows[0].date))
      case Some(d) =>
        match ParseConfirmed(rows[1..])
        case Err(e) => Err(e)
        case Ok(rest) => Ok([Anchored(Key(rows[0].province, rows[0].country, d), rows[0].value)] + rest)
  }

  /**
   * The melted deaths table after its `Date` column is assigned from the
   * melted confirmed table and `Lat` and `Long` are dropped: row i takes the
   * date of confirmed row i, aligned by position; a row past the end of the
   * confirmed table gets NaT, which matches nothing.
   */
  function AlignDeaths(deaths: seq<LongRow>, confirmed: seq<Anchored<int>>): (r: seq<Keyed<int>>)
    ensures |r| == |deaths|
    ensures forall i :: 0 <= i < |deaths| ==> r[i].value == deaths[i].value
    ensures forall i :: 0 <= i < |deaths| && i < |confirmed| ==>
      r[i].key == Some(Key(deaths[i].province, deaths[i].country, confirmed[i].key.date))
    ensures forall i :: |confirmed| <= i < |deaths| ==> r[i].key == None
  {
    seq(|deaths|, i requires 0 <= i < |deaths| =>
      Keyed(if i < |confirmed| then Some(Key(deaths[i].province, deaths[i].country, confirmed[i].key.date)) else None,
            deaths[i].value))
  }

  /**
   * When both files have the same rows count and the same date columns,
   * every deaths row is dated by its own column header after all.
   */
  lemma DeathsDatedByOwnHeader(confirmed: WideTable, deaths: WideTable, conf: seq<Anchored<int>>)
    requires WellFormed(confirmed) && WellFormed(deaths)
    requires |confirmed.rows| == |deaths.rows| && confirmed.dateHeaders == deaths.dateHeaders
    requires ParseConfirmed(Melt.Melt(confirmed)) == Ok(conf)
    ensures forall i :: 0 <= i < |Melt.Melt(deaths)| ==>
      ParseHeader(Melt.Melt(deaths)[i].date).Some? &&
      AlignDeaths(Melt.Melt(deaths), conf)[i].key ==
        Some(Key(Melt.Melt(deaths)[i].province, Melt.Melt(deaths)[i].country, ParseHeader(Melt.Melt(deaths)[i].date).value))
  {
    MeltSameLayout(confirmed, deaths, 0);
  }

  /**
   * With a different layout the alignment misdates rows: when the deaths
   * file has one province more than a one-province confirmed file whose
   * first two headers are different days, that extra province's first
   * observation (its own header: the first date) is dated with the
   * confirmed file's second date, not with its own.
   */
  lemma DeathsMisdatedWhenLayoutsDiffer(confirmed: WideTable, deaths: WideTable, conf: seq<Anchored<int>>)
    requires WellFormed(confirmed) && WellFormed(deaths)
    requires |confirmed.rows| == 1 && |deaths.rows| == 2
    requires |confirmed.dateHeaders| >= 2 && deaths.dateHeaders == confirmed.dateHeaders
    requires ParseHeader(confirmed.dateHeaders[0]) != ParseHeader(confirmed.dateHeaders[1])
    requires ParseConfirmed(Melt.Melt(confirmed)) == Ok(conf)
    ensures |Melt.Melt(deaths)| > 1 && Melt.Melt(deaths)[1].date == confirmed.dateHeaders[0]
    ensures ParseHeader(confirmed.dateHeaders[0]).Some? && ParseHeader(confirmed.dateHeaders[1]).Some?
    ensures AlignDeaths(Melt.Melt(deaths), conf)[1].key ==
      Some(Key(deaths.rows[1].province, deaths.rows[1].country, ParseHeader(confirmed.dateHeaders[1]).value))
    ensures AlignDeaths(Melt.Melt(deaths), conf)[1].key !=
      Some(Key(deaths.rows[1].province, deaths.rows[1].country, ParseHeader(Melt.Melt(deaths)[1].date).value))
  {
    MeltLength(confirmed);
    MeltAt(confirmed, 0, 0);
    MeltAt(confirmed, 1, 0);
    MeltLength(deaths);
    MeltAt(deaths, 0, 1);
  }

  // -------------------------------------------------------------------
  // The vaccine series

  const VaccineRenames: map<string, string> := map["Province_State" := "Province/State", "Country_Region" := "Country/Region"]
  const VaccineDropped: seq<string> := ["UID", "People_at_least_one_dose"]

  /** The renamed labels and the dropped labels have nothing in common. */
  lemma RenameKeepsDropped(name: string)
    ensures Renamed(name, VaccineRenames) in VaccineDropped <==> name in VaccineDropped
  {
    if name in VaccineRenames {
      assert name == "Province_State" || name == "Country_Region";
      assert VaccineRenames[name] == "Province/State" || VaccineRenames[name] == "Country/Region";
    }
  }

  lemma {:induction false} KeptPositionsAfterRename(columns: seq<string>, renamed: seq<string>, from: nat)
    requires from <= |columns| == |renamed|
    requires forall j :: 0 <= j < |columns| ==> renamed[j] == Renamed(columns[j], VaccineRenames)
    ensures KeptPositions(renamed, VaccineDropped, from) == KeptPositions(columns, VaccineDropped, from)
    decreases |columns| - from
  {
    if from < |columns| {
      RenameKeepsDropped(columns[from]);
      assert renamed[from] in VaccineDropped <==> columns[from] in VaccineDropped;
      KeptPositionsAfterRename(columns, renamed, from + 1);
    }
  }

  /** A label `Drop` looks for is in the renamed columns exactly when it was in the original ones. */
  lemma DroppedLabelSurvivesRename(columns: seq<string>, renamed: seq<string>, l: string)
    requires l in VaccineDropped && |columns| == |renamed|
    requires forall j :: 0 <= j < |columns| ==> renamed[j] == Renamed(columns[j], VaccineRenames)
    ensures l in renamed <==> l in columns
  {
    if l in columns {
      var j :| 0 <= j < |columns| && columns[j] == l;
      RenameKeepsDropped(l);
      assert l !in VaccineRenames;
      assert renamed[j] == l;
    }
    if l in renamed {
      var j :| 0 <= j < |renamed| && renamed[j] == l;
      RenameKeepsDropped(columns[j]);
      assert columns[j] == l;
    }
  }

  /** What renaming does to the labels `Drop` then looks for and to the positions it keeps. */
  lemma RenameVaccineColumns(v: Frame<Cell>)
    ensures var renamed := Rename(v, VaccineRenames).columns;
      && ("UID" in renamed <==> "UID" in v.columns)
      && ("People_at_least_one_dose" in renamed <==> "People_at_least_one_dose" in v.columns)
      && KeptPositions(renamed, VaccineDropped, 0) == KeptPositions(v.columns, VaccineDropped, 0)
  {
    var renamed := Rename(v, VaccineRenames).columns;
    DroppedLabelSurvivesRename(v.columns, renamed, "UID");
    DroppedLabelSurvivesRename(v.columns, renamed, "People_at_least_one_dose");
    KeptPositionsAfterRename(v.columns, renamed, 0);
  }

  /** Dropping after renaming, described in terms of the table before the rename. */
  lemma DropRenamedVaccine(v: Frame<Cell>)
    requires Rectangular(v)
    ensures var r := Drop(Rename(v, VaccineRenames), VaccineDropped);
      && (r.Ok? <==> "UID" in v.columns && "People_at_least_one_dose" in v.columns)
      && (r.Err? ==> r.error.KeyError? && r.error.name !in v.columns && r.error.name in VaccineDropped)
      && (r.Ok? ==> Rectangular(r.value) && |r.value.rows| == |v.rows|)
      && (r.Ok? ==>
        var keep := KeptPositions(v.columns, VaccineDropped, 0);
        && |r.value.columns| == |keep|
        && (forall k :: 0 <= k < |keep| ==> r.value.columns[k] == Renamed(v.columns[keep[k]], VaccineRenames))
        && forall i :: 0 <= i < |v.rows| ==> r.value.rows[i] == Pick(v.rows[i], keep))
  {
    var renamed := Rename(v, VaccineRenames);
    RenameVaccineColumns(v);
    var r := Drop(renamed, VaccineDropped);
    assert forall l :: l in VaccineDropped <==> l == "UID" || l == "People_at_least_one_dose";
  }

  /**
   * The vaccine table's normalisation: reading its `Province_State` and
   * `Date` columns, renaming `Province_State` and `Country_Region` to the
   * join-key names and dropping `UID` and `People_at_least_one_dose`.
   * Every other column keeps its name, position and cells; every row stays.
   * The vaccine dates are taken as already parsed.
   */
  function NormaliseVaccine(v: Frame<Cell>): (r: Result<Frame<Cell>, Error>)
    requires Rectangular(v)
    ensures r.Ok? <==> "Province_State" in v.columns && "Date" in v.columns && "UID" in v.columns && "People_at_least_one_dose" in v.columns
    ensures r.Err? ==>
      r.error.KeyError? && r.error.name !in v.columns && r.error.name in ["Province_State", "Date", "UID", "People_at_least_one_dose"]
    ensures r.Ok? ==> Rectangular(r.value) && |r.value.rows| == |v.rows|
    ensures r.Ok? ==>
      var keep := KeptPositions(v.columns, VaccineDropped, 0);
      && |r.value.columns| == |keep|
      && (forall k :: 0 <= k < |keep| ==> r.value.columns[k] == Renamed(v.columns[keep[k]], VaccineRenames))
      && forall i :: 0 <= i < |v.rows| ==> r.value.rows[i] == Pick(v.rows[i], keep)
  {
    if "Province_State" !in v.columns then Err(KeyError("Province_State"))
    else if "Date" !in v.columns then Err(KeyError("Date"))
    else
      DropRenamedVaccine(v);
      Drop(Rename(v, VaccineRenames), VaccineDropped)
  }

  /** The join key a vaccine row's cells make, if they can equal a confirmed row's key at all. */
  function KeyOfCells(province: Cell, country: Cell, date: Cell): Option<Key>
  {
    if (province.Null? || province.Text?) && country.Text? && date.Day? then
      Some(Key(if province.Text? then Some(province.text) else None, country.text, date.date))
    else None
  }

  /** A `Doses_admin` cell as the number the sum adds; anything else is null. */
  function DosesOfCell(c: Cell): Option<real>
  {
    match c
    case Count(n) => Some(n as real)
    case Decimal(x) => Some(x)
    case _ => None
  }

  /** The labels the second merge and the group-sum read from the vaccine table. */
  predicate HasVaccineLabels(columns: seq<string>)
  {
    "Province/State" in columns && "Country/Region" in columns && "Date" in columns && "Doses_admin" in columns
  }

  /** One vaccine row as the right side of the merge: its key cells and its dose count. */
  function VaccineRow(columns: seq<string>, row: seq<Cell>): Keyed<Option<real>>
    requires HasVaccineLabels(columns) && |row| == |columns|
  {
    Keyed(KeyOfCells(row[IndexOf(columns, "Province/State")], row[IndexOf(columns, "Country/Region")],
                     row[IndexOf(columns, "Date")]),
          DosesOfCell(row[IndexOf(columns, "Doses_admin")]))
  }

  /**
   * The normalised vaccine table as the right side of the second merge, one
   * entry per row. The merge and the group-sum raise a KeyError when a key
   * column or `Doses_admin` is missing, and when the table has its own
   * `Confirmed` or `Deaths` column, which the merge would suffix.
   */
  function VaccineKeyed(v: Frame<Cell>): (r: Result<seq<Keyed<Option<real>>>, Error>)
    requires Rectangular(v)
    ensures r.Ok? <==> HasVaccineLabels(v.columns) && "Confirmed" !in v.columns && "Deaths" !in v.columns
    ensures r.Err? ==> r.error.KeyError?
    ensures r.Ok? ==> |r.value| == |v.rows| && forall i :: 0 <= i < |v.rows| ==> r.value[i] == VaccineRow(v.columns, v.rows[i])
  {
    if "Province/State" !in v.columns then Err(KeyError("Province/State"))
    else if "Country/Region" !in v.columns then Err(KeyError("Country/Region"))
    else if "Date" !in v.columns then Err(KeyError("Date"))
    else if "Doses_admin" !in v.columns then Err(KeyError("Doses_admin"))
    else if "Confirmed" in v.columns then Err(KeyError("Confirmed"))
    else if "Deaths" in v.columns then Err(KeyError("Deaths"))
    else Ok(seq(|v.rows|, i requires 0 <= i < |v.rows| => VaccineRow(v.columns, v.rows[i])))
  }

  // -------------------------------------------------------------------
  // Merging, grouping, converting

  /** The twice-merged table's columns, with the two nulls of the doses column made one. */
  function Flatten(rows: seq<Anchored<((int, Option<int>), Option<Option<real>>)>>): (r: seq<MergedRow>)
    ensures |r| == |rows|
    ensures forall i :: 0 <= i < |rows| ==>
      && r[i].key == rows[i].key
      && r[i].confirmed == rows[i].payload.0.0
      && r[i].deaths == rows[i].payload.0.1
      && r[i].doses == (if rows[i].payload.1.Some? then rows[i].payload.1.value else None)
  {
    seq(|rows|, i requires 0 <= i < |rows| =>
      var p := rows[i].payload;
      MergedRow(rows[i].key, p.0.0, p.0.1, if p.1.Some? then p.1.value else None))
  }

  /** `astype(int)` on a float: truncation toward zero. */
  function Trunc(x: real): (n: int)
    ensures 0.0 <= x ==> n as real <= x < n as real + 1.0
    ensures x < 0.0 ==> n as real - 1.0 < x <= n as real
  {
    if x >= 0.0 then x.Floor else -((-x).Floor)
  }

  /** Renaming the columns to the stored schema and casting doses to an integer. */
  function ToTimeSeries(grouped: seq<GroupedRow>): (r: seq<TimeSeriesRow<Date>>)
    ensures |r| == |grouped|
    ensures forall i :: 0 <= i < |grouped| ==>
      r[i] == TimeSeriesRow(grouped[i].country, grouped[i].date, grouped[i].confirmed, grouped[i].deaths, Trunc(grouped[i].doses))
  {
    seq(|grouped|, i requires 0 <= i < |grouped| =>
      var g := grouped[i];
      TimeSeriesRow(g.country, g.date, g.confirmed, g.deaths, Trunc(g.doses)))
  }

  /** The (country, date) order of the time series: by country, then chronologically. */
  predicate SeriesLess(a: TimeSeriesRow<Date>, b: TimeSeriesRow<Date>)
  {
    LexLess(a.country, b.country) || (a.country == b.country && Before(a.reportedOn, b.reportedOn))
  }

  /** Every key of the parsed confirmed table carries a full date. */
  lemma ConfirmedKeysFullDate(rows: seq<LongRow>, conf: seq<Anchored<int>>)
    requires ParseConfirmed(rows) == Ok(conf)
    ensures forall k :: k in KeysOf(conf) ==> IsFullDate(k.date)
  {
    forall k | k in KeysOf(conf) ensures IsFullDate(k.date) {
      var i :| 0 <= i < |conf| && conf[i].key == k;
      assert ParseHeader(rows[i].date).Some?;
    }
  }

  /** Both merges and the flattening keep exactly the left table's keys. */
  lemma MergedKeysFromConfirmed(conf: seq<Anchored<int>>, deathsKeyed: seq<Keyed<int>>, doses: seq<Keyed<Option<real>>>)
    ensures forall n :: 0 <= n < |Flatten(LeftMerge(LeftMerge(conf, deathsKeyed), doses))| ==>
      Flatten(LeftMerge(LeftMerge(conf, deathsKeyed), doses))[n].key in KeysOf(conf)
  {
    var once := LeftMerge(conf, deathsKeyed);
    var twice := LeftMerge(once, doses);
    LeftMergeKeys(conf, deathsKeyed);
    LeftMergeKeys(once, doses);
    forall n | 0 <= n < |twice| ensures twice[n].key in KeysOf(conf) {
      assert twice[n].key in KeysOf(twice);
    }
  }

  /** The merged table `create_time_series` groups, or the error it raises first. */
  function MergedTable(confirmed: WideTable, deaths: WideTable, vaccine: Frame<Cell>): (r: Result<seq<MergedRow>, Error>)
    requires WellFormed(confirmed) && WellFormed(deaths) && Rectangular(vaccine)
    ensures r.Ok? <==>
      && ParseConfirmed(Melt.Melt(confirmed)).Ok?
      && NormaliseVaccine(vaccine).Ok?
      && VaccineKeyed(NormaliseVaccine(vaccine).value).Ok?
    ensures r.Ok? ==> forall n :: 0 <= n < |r.value| ==>
      r.value[n].key in KeysOf(ParseConfirmed(Melt.Melt(confirmed)).value) && IsFullDate(r.value[n].key.date)
  {
    match ParseConfirmed(Melt.Melt(confirmed))
    case Err(e) => Err(e)
    case Ok(conf) =>
      match NormaliseVaccine(vaccine)
      case Err(e) => Err(e)
      case Ok(vac) =>
        match VaccineKeyed(vac)
        case Err(e) => Err(e)
        case Ok(doses) =>
          var deathsKeyed := AlignDeaths(Melt.Melt(deaths), conf);
          ConfirmedKeysFullDate(Melt.Melt(confirmed), conf);
          MergedKeysFromConfirmed(conf, deathsKeyed, doses);
          Ok(Flatten(LeftMerge(LeftMerge(conf, deathsKeyed), doses)))
  }

  /**
   * When neither the deaths nor the vaccine table has two rows with one
   * key, the merged table is the confirmed table row for row, each row
   * with the deaths and doses found under its key.
   */
  lemma MergeKeepsConfirmedRows(conf: seq<Anchored<int>>, deathsKeyed: seq<Keyed<int>>, doses: seq<Keyed<Option<real>>>)
    requires AtMostOneMatch(deathsKeyed) && AtMostOneMatch(doses)
    ensures var merged := Flatten(LeftMerge(LeftMerge(conf, deathsKeyed), doses));
      && |merged| == |conf|
      && forall i :: 0 <= i < |conf| ==>
        && merged[i].key == conf[i].key
        && merged[i].confirmed == conf[i].payload
        && merged[i].deaths == Lookup(deathsKeyed, conf[i].key)
        && merged[i].doses == (if Lookup(doses, conf[i].key).Some? then Lookup(doses, conf[i].key).value else None)
  {
    var once := LeftMerge(conf, deathsKeyed);
    LeftMergeUnique(conf, deathsKeyed);
    LeftMergeUnique(once, doses);
  }

  /** The (country, date) of a time-series row. */
  function SeriesKey(t: TimeSeriesRow<Date>): GroupKey
  {
    GroupKey(t.country, t.reportedOn)
  }

  /** The set of (country, date) pairs a time series holds. */
  function SeriesKeys(ts: seq<TimeSeriesRow<Date>>): set<GroupKey>
  {
    set i | 0 <= i < |ts| :: SeriesKey(ts[i])
  }

  /** The time series has the grouped table's key set. */
  lemma ToTimeSeriesKeys(grouped: seq<GroupedRow>)
    ensures SeriesKeys(ToTimeSeries(grouped)) == GroupedKeys(grouped)
  {
    var ts := ToTimeSeries(grouped);
    forall k | k in GroupedKeys(grouped) ensures k in SeriesKeys(ts) {
      var i :| 0 <= i < |grouped| && GroupedKey(grouped[i]) == k;
      assert SeriesKey(ts[i]) == k;
    }
  }

  /**
   * The group-sum of a merged table as time-series rows: ascending by
   * (country, date), with exactly the merged table's (country, date) pairs,
   * each carrying its group's sums and its doses truncated; full dates stay
   * full dates.
   */
  function GroupedSeries(merged: seq<MergedRow>): (ts: seq<TimeSeriesRow<Date>>)
    ensures forall i, j :: 0 <= i < j < |ts| ==> SeriesLess(ts[i], ts[j])
    ensures SeriesKeys(ts) == Aggregate.MergedKeys(merged)
    ensures forall i :: 0 <= i < |ts| ==>
      && ts[i].confirmed == SumWhere(merged, GroupKeyOf, ConfirmedOf, SeriesKey(ts[i]))
      && ts[i].deaths == SumWhere(merged, GroupKeyOf, DeathsOf, SeriesKey(ts[i]))
      && ts[i].dosesAdministered == Trunc(DosesSum(merged, SeriesKey(ts[i])))
    ensures (forall n :: 0 <= n < |merged| ==> IsFullDate(merged[n].key.date)) ==>
      forall i :: 0 <= i < |ts| ==> IsFullDate(ts[i].reportedOn)
  {
    var grouped := GroupSum(merged);
    var ts := ToTimeSeries(grouped);
    ToTimeSeriesKeys(grouped);
    assert forall i :: 0 <= i < |ts| ==> SeriesKey(ts[i]) == GroupedKey(grouped[i]);
    assert forall i, j :: 0 <= i < j < |ts| ==> SeriesLess(ts[i], ts[j]) by {
      forall i, j | 0 <= i < j < |ts| ensures SeriesLess(ts[i], ts[j]) {
        assert GroupLess(GroupedKey(grouped[i]), GroupedKey(grouped[j]));
      }
    }
    assert (forall n :: 0 <= n < |merged| ==> IsFullDate(merged[n].key.date)) ==>
      forall i :: 0 <= i < |ts| ==> IsFullDate(ts[i].reportedOn) by {
      forall i | 0 <= i < |ts| && (forall n :: 0 <= n < |merged| ==> IsFullDate(merged[n].key.date))
        ensures IsFullDate(ts[i].reportedOn)
      {
        assert GroupedKey(grouped[i]) in GroupedKeys(grouped);
        var n :| 0 <= n < |merged| && GroupKeyOf(merged[n]) == GroupedKey(grouped[i]);
      }
    }
    ts
  }

  /**
   * `create_time_series`: one row per (country, date) of the merged table,
   * ascending, with that group's sums and its doses truncated; or the
   * error pandas raises first.
   */
  function CreateTimeSeries(confirmed: WideTable, deaths: WideTable, vaccine: Frame<Cell>): (r: Result<seq<TimeSeriesRow<Date>>, Error>)
    requires WellFormed(confirmed) && WellFormed(deaths) && Rectangular(vaccine)
    ensures r.Ok? <==> MergedTable(confirmed, deaths, vaccine).Ok?
    ensures r.Ok? ==> forall i, j :: 0 <= i < j < |r.value| ==> SeriesLess(r.value[i], r.value[j])
    ensures r.Ok? ==> forall i :: 0 <= i < |r.value| ==> IsFullDate(r.value[i].reportedOn)
    ensures r.Ok? ==> SeriesKeys(r.value) == Aggregate.MergedKeys(MergedTable(confirmed, deaths, vaccine).value)
    ensures r.Ok? ==> forall i :: 0 <= i < |r.value| ==>
      var merged, k := MergedTable(confirmed, deaths, vaccine).value, SeriesKey(r.value[i]);
      && r.value[i].confirmed == SumWhere(merged, GroupKeyOf, ConfirmedOf, k)
      && r.value[i].deaths == SumWhere(merged, GroupKeyOf, DeathsOf, k)
      && r.value[i].dosesAdministered == Trunc(DosesSum(merged, k))
  {
    match MergedTable(confirmed, deaths, vaccine)
    case Err(e) => Err(e)
    case Ok(merged) => Ok(GroupedSeries(merged))
  }

  function SeriesConfirmed<D>(t: TimeSeriesRow<D>): int { t.confirmed }
  function ObservedCount(a: Anchored<int>): int { a.payload }
  function MeltedCount(r: LongRow): int { r.value }

  /**
   * Grouping neither loses nor invents cases: when the deaths and vaccine
   * tables have at most one row per key, the time series' confirmed column
   * adds up to the sum of every cell of the confirmed file.
   */
  lemma TimeSeriesKeepsConfirmedTotal(confirmed: WideTable, deaths: WideTable, vaccine: Frame<Cell>,
                                      conf: seq<Anchored<int>>, vac: Frame<Cell>, doses: seq<Keyed<Option<real>>>)
    requires WellFormed(confirmed) && WellFormed(deaths) && Rectangular(vaccine)
    requires ParseConfirmed(Melt.Melt(confirmed)) == Ok(conf)
    requires NormaliseVaccine(vaccine) == Ok(vac) && VaccineKeyed(vac) == Ok(doses)
    requires AtMostOneMatch(AlignDeaths(Melt.Melt(deaths), conf)) && AtMostOneMatch(doses)
    ensures CreateTimeSeries(confirmed, deaths, vaccine).Ok?
    ensures Total(CreateTimeSeries(confirmed, deaths, vaccine).value, SeriesConfirmed) == Total(Melt.Melt(confirmed), MeltedCount)
  {
    var deathsKeyed := AlignDeaths(Melt.Melt(deaths), conf);
    var merged := MergedTable(confirmed, deaths, vaccine).value;
    assert merged == Flatten(LeftMerge(LeftMerge(conf, deathsKeyed), doses));
    MergeKeepsConfirmedRows(conf, deathsKeyed, doses);
    var grouped := GroupSum(merged);
    var ts := CreateTimeSeries(confirmed, deaths, vaccine).value;
    assert ts == ToTimeSeries(grouped);
    TotalMap(ts, grouped, SeriesConfirmed, GroupedConfirmed);
    GroupSumConserves(merged);
    TotalMap(merged, conf, ConfirmedOf, ObservedCount);
    TotalMap(conf, Melt.Melt(confirmed), ObservedCount, MeltedCount);
  }

  // -------------------------------------------------------------------
  // Storage form of the dates

  /** `reported_on.map(lambda x: x.strftime("%Y-%m-%d"))`. */
  function FormatDates(ts: seq<TimeSeriesRow<Date>>): (r: seq<TimeSeriesRow<string>>)
    requires forall i :: 0 <= i < |ts| ==> IsFullDate(ts[i].reportedOn)
    ensures |r| == |ts|
    ensures forall i :: 0 <= i < |ts| ==>
      r[i] == TimeSeriesRow(ts[i].country, FormatIso(ts[i].reportedOn), ts[i].confirmed, ts[i].deaths, ts[i].dosesAdministered)
  {
    seq(|ts|, i requires 0 <= i < |ts| =>
      var t := ts[i];
      TimeSeriesRow(t.country, FormatIso(t.reportedOn), t.confirmed, t.deaths, t.dosesAdministered))
  }

  /** The stored order: by country, then by the date string. */
  predicate StoredLess(a: TimeSeriesRow<string>, b: TimeSeriesRow<string>)
  {
    LexLess(a.country, b.country) || (a.country == b.country && LexLess(a.reportedOn, b.reportedOn))
  }

  /**
   * Writing the dates as strings keeps the table's order: sorting the
   * stored rows by (country, reported_on) string gives the same order.
   */
  lemma FormatDatesKeepsOrder(ts: seq<TimeSeriesRow<Date>>)
    requires forall i :: 0 <= i < |ts| ==> IsFullDate(ts[i].reportedOn)
    requires forall i, j :: 0 <= i < j < |ts| ==> SeriesLess(ts[i], ts[j])
    ensures forall i, j :: 0 <= i < j < |ts| ==> StoredLess(FormatDates(ts)[i], FormatDates(ts)[j])
  {
    forall i, j | 0 <= i < j < |ts| ensures StoredLess(FormatDates(ts)[i], FormatDates(ts)[j]) {
      IsoOrder(ts[i].reportedOn, ts[j].reportedOn);
    }
  }

  /** The stored series: ascending by (country, date string), no pair twice, every date readable back. */
  lemma StoredSeriesWellOrdered(ts: seq<TimeSeriesRow<Date>>)
    requires forall i :: 0 <= i < |ts| ==> IsFullDate(ts[i].reportedOn)
    requires forall i, j :: 0 <= i < j < |ts| ==> SeriesLess(ts[i], ts[j])
    ensures var stored := FormatDates(ts);
      && (forall i, j :: 0 <= i < j < |stored| ==>
            StoredLess(stored[i], stored[j]) &&
            (stored[i].country, stored[i].reportedOn) != (stored[j].country, stored[j].reportedOn))
      && (forall i :: 0 <= i < |stored| ==> |stored[i].reportedOn| == 10 && ParseIso(stored[i].reportedOn).Some?)
  {
    var stored := FormatDates(ts);
    FormatDatesKeepsOrder(ts);
    forall i | 0 <= i < |stored| ensures ParseIso(stored[i].reportedOn).Some? {
      IsoRoundTrip(ts[i].reportedOn);
    }
    forall i, j | 0 <= i < j < |stored|
      ensures (stored[i].country, stored[i].reportedOn) != (stored[j].country, stored[j].reportedOn)
    {
      LexLessIrreflexive(stored[i].country);
      LexLessIrreflexive(stored[i].reportedOn);
    }
  }

  // -------------------------------------------------------------------
  // The snapshot

  const SnapshotColumns: seq<string> := ["Country_Region", "Province_State", "Admin2", "Confirmed", "Deaths", "Lat", "Long_"]
  const DailyReportColumns: seq<string> := ["country", "province", "county", "confirmed", "deaths", "latitude", "longitude"]

  /**
   * `create_daily_report`: the seven snapshot columns, renamed, every row in
   * its order; a KeyError names a snapshot column that is missing.
   */
  function CreateDailyReport(snapshot: Frame<Cell>): (r: Result<Frame<Cell>, Error>)
    requires Rectangular(snapshot) && UniqueLabels(snapshot.columns)
    ensures r.Ok? <==> forall l :: l in SnapshotColumns ==> l in snapshot.columns
    ensures r.Err? ==> r.error.KeyError? && r.error.name in SnapshotColumns && r.error.name !in snapshot.columns
    ensures r.Ok? ==> r.value.columns == DailyReportColumns && |r.value.rows| == |snapshot.rows| && Rectangular(r.value)
    ensures r.Ok? ==> forall i, k :: 0 <= i < |snapshot.rows| && 0 <= k < |SnapshotColumns| ==>
      SnapshotColumns[k] in snapshot.columns &&
      r.value.rows[i][k] == snapshot.rows[i][IndexOf(snapshot.columns, SnapshotColumns[k])]
  {
    match Select(snapshot, SnapshotColumns)
    case Err(e) => Err(e)
    case Ok(selected) => SetColumns(selected, DailyReportColumns)
  }

  // -------------------------------------------------------------------
  // The whole run

  /**
   * What `create_database` writes: the time series with its dates as
   * strings, then the daily report; or the first error, in which case
   * nothing is written.
   */
  function CreateDatabase(confirmed: WideTable, deaths: WideTable, vaccine: Frame<Cell>, snapshot: Frame<Cell>)
    : (r: Result<(seq<TimeSeriesRow<string>>, Frame<Cell>), Error>)
    requires WellFormed(confirmed) && WellFormed(deaths) && Rectangular(vaccine)
    requires Rectangular(snapshot) && UniqueLabels(snapshot.columns)
    ensures r.Ok? <==> CreateTimeSeries(confirmed, deaths, vaccine).Ok? && CreateDailyReport(snapshot).Ok?
    ensures r.Ok? ==> forall i, j :: 0 <= i < j < |r.value.0| ==>
      StoredLess(r.value.0[i], r.value.0[j]) &&
      (r.value.0[i].country, r.value.0[i].reportedOn) != (r.value.0[j].country, r.value.0[j].reportedOn)
    ensures r.Ok? ==> forall i :: 0 <= i < |r.value.0| ==>
      |r.value.0[i].reportedOn| == 10 && ParseIso(r.value.0[i].reportedOn).Some?
    ensures r.Ok? ==>
      && r.value.0 == FormatDates(CreateTimeSeries(confirmed, deaths, vaccine).value)
      && r.value.1 == CreateDailyReport(snapshot).value
  {
    match CreateTimeSeries(confirmed, deaths, vaccine)
    case Err(e) => Err(e)
    case Ok(ts) =>
      var stored := FormatDates(ts);
      StoredSeriesWellOrdered(ts);
      match CreateDailyReport(snapshot)
      case Err(e) => Err(e)
      case Ok(report) => Ok((stored, report))
  }
}

=== FILE: dashboard.dfy ===
/**
 * The dashboard's computations over the two stored tables: the headline
 * totals, the default country selection (the thirty countries with the
 * most confirmed cases), the hover labels of the global map and the
 * per-country series behind the three line charts. Reading the database
 * and drawing the figures are not part of the model.
 */
module Dashboard {
  import opened Wrappers
  import opened Ordering
  import opened Grouping
  import opened Ranking
  import opened Dates
  import opened Frames
  import opened CreateCovid19DB

  /** A stored `daily_report` row; a NULL province or county reads back as `None`. */
  datatype DailyRecord = DailyRecord(country: string, province: Option<string>, county: Option<string>,
                                     confirmed: int, deaths: int, latitude: Cell, longitude: Cell)

  function RecordCountry(r: DailyRecord): string { r.country }
  function RecordConfirmed(r: DailyRecord): int { r.confirmed }
  function RecordDeaths(r: DailyRecord): int { r.deaths }

  // -------------------------------------------------------------------
  // Boolean-mask row selection

  /** `df[mask]`: the rows the mask keeps, in their order. */
  function Filter<T(==, !new)>(xs: seq<T>, keep: T -> bool): (r: seq<T>)
    ensures |r| <= |xs|
    ensures forall x :: x in r <==> x in xs && keep(x)
  {
    if xs == [] then []
    else if keep(xs[0]) then [xs[0]] + Filter(xs[1..], keep)
    else Filter(xs[1..], keep)
  }

  /** Selection works row by row: the rows kept from two tables end to end are those kept from each. */
  lemma {:induction false} FilterAppend<T(!new)>(a: seq<T>, b: seq<T>, keep: T -> bool)
    ensures Filter(a + b, keep) == Filter(a, keep) + Filter(b, keep)
  {
    if a == [] {
      assert a + b == b;
    } else {
      assert (a + b)[1..] == a[1..] + b;
      FilterAppend(a[1..], b, keep);
    }
  }

  /** Selecting twice with one mask selects nothing more. */
  lemma {:induction false} FilterIdempotent<T(!new)>(xs: seq<T>, keep: T -> bool)
    ensures Filter(Filter(xs, keep), keep) == Filter(xs, keep)
  {
    if xs != [] {
      FilterIdempotent(xs[1..], keep);
    }
  }

  /** Selection keeps the rows' relative order: whatever holds of every earlier-later pair still holds. */
  lemma {:induction false} FilterKeepsOrder<T(!new)>(xs: seq<T>, keep: T -> bool, lt: (T, T) -> bool)
    requires forall i, j :: 0 <= i < j < |xs| ==> lt(xs[i], xs[j])
    ensures forall i, j :: 0 <= i < j < |Filter(xs, keep)| ==> lt(Filter(xs, keep)[i], Filter(xs, keep)[j])
  {
    if xs != [] {
      var rest := Filter(xs[1..], keep);
      FilterKeepsOrder(xs[1..], keep, lt);
      if keep(xs[0]) {
        var r := [xs[0]] + rest;
        forall i, j | 0 <= i < j < |r| ensures lt(r[i], r[j]) {
          if i == 0 {
            assert r[j] in xs[1..];
            var k :| 0 <= k < |xs[1..]| && xs[1..][k] == r[j];
            assert xs[k + 1] == r[j];
          } else {
            assert r[i] == rest[i - 1] && r[j] == rest[j - 1];
          }
        }
      }
    }
  }

  // -------------------------------------------------------------------
  // Headline totals

  /** The countries of the snapshot, once each, cover every row. */
  lemma CountriesCoverRows(dailyReport: seq<DailyRecord>)
    ensures Distinct(Countries(dailyReport))
    ensures forall i :: 0 <= i < |dailyReport| ==> RecordCountry(dailyReport[i]) in Countries(dailyReport)
  {
    var cs := Countries(dailyReport);
    LexLessIsStrictTotalOrder();
    SortedIsDistinct(cs, LexLess);
    forall i | 0 <= i < |dailyReport| ensures RecordCountry(dailyReport[i]) in cs {
      assert CountryColumn(dailyReport)[i] in CountryColumn(dailyReport);
    }
  }

  /**
   * `daily_report["confirmed"].sum()`: the per-country confirmed sums of
   * `groupby("country")` add up to it, so no row is lost or counted twice.
   */
  function TotalCases(dailyReport: seq<DailyRecord>): (r: int)
    ensures r == SumEach(Countries(dailyReport), dailyReport, RecordCountry, RecordConfirmed)
  {
    CountriesCoverRows(dailyReport);
    Conservation(Countries(dailyReport), dailyReport, RecordCountry, RecordConfirmed);
    Total(dailyReport, RecordConfirmed)
  }

  /** `daily_report["deaths"].sum()`: the per-country death sums add up to it. */
  function TotalDeaths(dailyReport: seq<DailyRecord>): (r: int)
    ensures r == SumEach(Countries(dailyReport), dailyReport, RecordCountry, RecordDeaths)
  {
    CountriesCoverRows(dailyReport);
    Conservation(Countries(dailyReport), dailyReport, RecordCountry, RecordDeaths);
    Total(dailyReport, RecordDeaths)
  }

  /** The last day of the series, on which the cumulative dose counts are read. */
  const LatestDay: string := "2023-03-09"

  function StoredDay(t: TimeSeriesRow<string>): string { t.reportedOn }
  function StoredDoses(t: TimeSeriesRow<string>): int { t.dosesAdministered }

  /** The mask `time_series["reported_on"] == "2023-03-09"`. */
  predicate OnLatestDay(t: TimeSeriesRow<string>)
  {
    t.reportedOn == LatestDay
  }

  /** Summing the selected rows is summing the rows whose day is `LatestDay`. */
  lemma {:induction false} LatestRowsTotal(timeSeries: seq<TimeSeriesRow<string>>)
    ensures Total(Filter(timeSeries, OnLatestDay), StoredDoses) == SumWhere(timeSeries, StoredDay, StoredDoses, LatestDay)
  {
    if timeSeries != [] {
      LatestRowsTotal(timeSeries[1..]);
    }
  }

  /**
   * `total_vaccinated`: the doses administered summed over exactly the
   * stored rows dated `LatestDay`.
   */
  function TotalVaccinated(timeSeries: seq<TimeSeriesRow<string>>): (r: int)
    ensures r == SumWhere(timeSeries, StoredDay, StoredDoses, LatestDay)
  {
    LatestRowsTotal(timeSeries);
    Total(Filter(timeSeries, OnLatestDay), StoredDoses)
  }

  /** A country's confirmed cases in the snapshot: `groupby("country")["confirmed"].sum()`. */
  function CountryTotal(dailyReport: seq<DailyRecord>, country: string): int
  {
    SumWhere(dailyReport, RecordCountry, RecordConfirmed, country)
  }

  function CountryColumn(dailyReport: seq<DailyRecord>): (cs: seq<string>)
    ensures |cs| == |dailyReport| && forall i :: 0 <= i < |dailyReport| ==> cs[i] == dailyReport[i].country
  {
    seq(|dailyReport|, i requires 0 <= i < |dailyReport| => dailyReport[i].country)
  }

  /** The group keys of `groupby("country")`: every country once, in ascending order. */
  function Countries(dailyReport: seq<DailyRecord>): (cs: seq<string>)
    ensures forall c :: c in cs <==> c in CountryColumn(dailyReport)
    ensures StrictlySorted(cs, LexLess)
  {
    LexLessIsStrictTotalOrder();
    SortedDistinctSorted(CountryColumn(dailyReport), LexLess);
    SortedDistinct(CountryColumn(dailyReport), LexLess)
  }

  // -------------------------------------------------------------------
  // The default selection

  const TopCount: nat := 30

  /** The weight the ranking sorts countries by. */
  function ByConfirmed(dailyReport: seq<DailyRecord>): string -> int
  {
    (c: string) => CountryTotal(dailyReport, c)
  }

  /** `top_confirmed`: the countries by non-increasing confirmed total, the first thirty. */
  function TopConfirmed(dailyReport: seq<DailyRecord>): (top: seq<string>)
    ensures |top| <= TopCount
    ensures forall c :: c in top ==> c in CountryColumn(dailyReport)
  {
    var ranked := SortDescending(Countries(dailyReport), ByConfirmed(dailyReport));
    RankedCountries(dailyReport);
    Top(ranked, TopCount)
  }

  /** The ranked countries: every country of the snapshot once, heaviest first. */
  lemma RankedCountries(dailyReport: seq<DailyRecord>)
    ensures var ranked := SortDescending(Countries(dailyReport), ByConfirmed(dailyReport));
      && |ranked| == |Countries(dailyReport)|
      && (forall i, j :: 0 <= i < j < |ranked| ==> ranked[i] != ranked[j])
      && (forall c :: c in ranked <==> c in CountryColumn(dailyReport))
      && NonIncreasing(ranked, ByConfirmed(dailyReport))
  {
    var cs := Countries(dailyReport);
    var ranked := SortDescending(cs, ByConfirmed(dailyReport));
    LexLessIsStrictTotalOrder();
    SortedIsDistinct(cs, LexLess);
    SortDescendingSorted(cs, ByConfirmed(dailyReport));
    assert |ranked| == |cs| by {
      assert |multiset(ranked)| == |multiset(cs)|;
    }
    DistinctByMultiset(cs, ranked);
    forall c ensures c in ranked <==> c in cs {
      assert c in ranked <==> c in multiset(ranked);
      assert c in cs <==> c in multiset(cs);
    }
  }

  /**
   * The default selection holds at most thirty distinct countries of the
   * snapshot, ordered by non-increasing total; it holds thirty, or every
   * country when there are fewer; and no country left out has more
   * confirmed cases than any country kept.
   */
  lemma TopConfirmedSelection(dailyReport: seq<DailyRecord>)
    ensures var top := TopConfirmed(dailyReport);
      && |top| == (if |Countries(dailyReport)| < TopCount then |Countries(dailyReport)| else TopCount)
      && (forall i, j :: 0 <= i < j < |top| ==> top[i] != top[j])
      && (forall c :: c in top ==> c in CountryColumn(dailyReport))
      && (forall i, j :: 0 <= i < j < |top| ==> CountryTotal(dailyReport, top[i]) >= CountryTotal(dailyReport, top[j]))
      && (forall c, k :: c in CountryColumn(dailyReport) && c !in top && k in top ==>
            CountryTotal(dailyReport, c) <= CountryTotal(dailyReport, k))
  {
    var ranked := SortDescending(Countries(dailyReport), ByConfirmed(dailyReport));
    RankedCountries(dailyReport);
    TopKeepsHeaviest(ranked, TopCount, ByConfirmed(dailyReport));
    var top := TopConfirmed(dailyReport);
    assert top == ranked[..|top|];
    forall i, j | 0 <= i < j < |top| ensures CountryTotal(dailyReport, top[i]) >= CountryTotal(dailyReport, top[j]) {
      assert ByConfirmed(dailyReport)(ranked[i]) >= ByConfirmed(dailyReport)(ranked[j]);
    }
    forall c | c in top ensures c in CountryColumn(dailyReport) {
      assert c in ranked;
    }
    forall c, k | c in CountryColumn(dailyReport) && c !in top && k in top
      ensures CountryTotal(dailyReport, c) <= CountryTotal(dailyReport, k)
    {
      assert c in ranked;
      assert ByConfirmed(dailyReport)(c) <= ByConfirmed(dailyReport)(k);
    }
  }

  /** A rearrangement of a sequence without repeats has no repeats either. */
  lemma DistinctByMultiset(a: seq<string>, b: seq<string>)
    requires multiset(a) == multiset(b)
    requires forall i, j :: 0 <= i < j < |a| ==> a[i] != a[j]
    ensures forall i, j :: 0 <= i < j < |b| ==> b[i] != b[j]
  {
    DistinctCountsOnce(a);
    forall i, j | 0 <= i < j < |b| ensures b[i] != b[j] {
      if b[i] == b[j] {
        RepeatCountsTwice(b, i, j);
      }
    }
  }

  lemma {:induction false} DistinctCountsOnce(a: seq<string>)
    requires forall i, j :: 0 <= i < j < |a| ==> a[i] != a[j]
    ensures forall x :: multiset(a)[x] <= 1
  {
    if a != [] {
      DistinctCountsOnce(a[1..]);
      assert a == [a[0]] + a[1..];
      assert a[0] !in a[1..];
    }
  }

  lemma RepeatCountsTwice(b: seq<string>, i: nat, j: nat)
    requires i < j < |b| && b[i] == b[j]
    ensures multiset(b)[b[i]] >= 2
  {
    assert b == b[..i] + [b[i]] + b[i + 1..j] + [b[j]] + b[j + 1..];
  }

  // -------------------------------------------------------------------
  // The global map's hover labels

  /** The most specific place a row names. */
  datatype Location =
    | Country(country: string)
    | Province(country: string, province: string)
    | County(country: string, countyProvince: Option<string>, county: string)

  /** One map marker's hover data: where, confirmed, deaths. */
  datatype HoverEntry = HoverEntry(location: Location, confirmed: int, deaths: int)

  /** The (country, province, county) fields a location label stands for. */
  function Fields(loc: Location): (string, Option<string>, Option<string>)
  {
    match loc
    case Country(c) => (c, None, None)
    case Province(c, p) => (c, Some(p), None)
    case County(c, p, k) => (c, p, Some(k))
  }

  /** A row's label: county if known, else province if known, else the country; nothing is lost. */
  function LocationOf(r: DailyRecord): (loc: Location)
    ensures Fields(loc) == (r.country, r.province, r.county)
  {
    if r.county.Some? then County(r.country, r.province, r.county.value)
    else if r.province.Some? then Province(r.country, r.province.value)
    else Country(r.country)
  }

  /** A label is the one its own fields give: labels and field triples correspond one to one. */
  lemma {:induction false} LabelsAreCanonical(loc: Location, confirmed: int, deaths: int, latitude: Cell, longitude: Cell)
    ensures LocationOf(DailyRecord(Fields(loc).0, Fields(loc).1, Fields(loc).2, confirmed, deaths, latitude, longitude)) == loc
  {
    match loc
    case Country(c) =>
    case Province(c, p) =>
    case County(c, p, k) =>
  }

  /** One marker's hover data: the row's label with its confirmed and death counts. */
  function HoverOf(r: DailyRecord): (h: HoverEntry)
    ensures Fields(h.location) == (r.country, r.province, r.county)
    ensures h.confirmed == r.confirmed && h.deaths == r.deaths
  {
    HoverEntry(LocationOf(r), r.confirmed, r.deaths)
  }

  /** `daily_report[daily_report["country"].isin(country_names)]`. */
  function FilterByCountries(dailyReport: seq<DailyRecord>, countryNames: seq<string>): (r: seq<DailyRecord>)
    ensures forall x :: x in r <==> x in dailyReport && x.country in countryNames
  {
    Filter(dailyReport, (x: DailyRecord) => x.country in countryNames)
  }

  /**
   * The hover data of `filter_global_map`: one entry per selected row, in
   * row order, each the row's most specific location with its confirmed
   * and deaths counts.
   */
  method FilterGlobalMap(dailyReport: seq<DailyRecord>, countryNames: seq<string>) returns (information: seq<HoverEntry>)
    ensures |information| == |FilterByCountries(dailyReport, countryNames)|
    ensures forall i :: 0 <= i < |information| ==> information[i] == HoverOf(FilterByCountries(dailyReport, countryNames)[i])
    ensures forall i :: 0 <= i < |information| ==> Fields(information[i].location).0 in countryNames
  {
    var filtered := FilterByCountries(dailyReport, countryNames);
    information := [];
    for k := 0 to |filtered|
      invariant |information| == k
      invariant forall i :: 0 <= i < k ==> information[i] == HoverOf(filtered[i])
    {
      var row := filtered[k];
      var marker;
      if row.county.Some? {
        marker := HoverEntry(County(row.country, row.province, row.county.value), row.confirmed, row.deaths);
      } else if row.province.Some? {
        marker := HoverEntry(Province(row.country, row.province.value), row.confirmed, row.deaths);
      } else {
        marker := HoverEntry(Country(row.country), row.confirmed, row.deaths);
      }
      information := information + [marker];
    }
    forall i | 0 <= i < |information| ensures Fields(information[i].location).0 in countryNames {
      assert filtered[i] in filtered;
    }
  }

  // -------------------------------------------------------------------
  // The country line charts

  /** `pd.to_datetime(time_series["reported_on"])` on stored `YYYY-MM-DD` strings, or the first it rejects. */
  function ParseStoredDates(timeSeries: seq<TimeSeriesRow<string>>): (r: Result<seq<TimeSeriesRow<Date>>, Error>)
    ensures r.Ok? <==> forall i :: 0 <= i < |timeSeries| ==> ParseIso(timeSeries[i].reportedOn).Some?
    ensures r.Ok? ==> |r.value| == |timeSeries| && forall i :: 0 <= i < |timeSeries| ==>
      var t := timeSeries[i];
      r.value[i] == TimeSeriesRow(t.country, ParseIso(t.reportedOn).value, t.confirmed, t.deaths, t.dosesAdministered)
  {
    if timeSeries == [] then Ok([])
    else
      var t := timeSeries[0];
      match ParseIso(t.reportedOn)
      case None => Err(ParseError(t.reportedOn))
      case Some(d) =>
        match ParseStoredDates(timeSeries[1..])
        case Err(e) => Err(e)
        case Ok(rest) => Ok([TimeSeriesRow(t.country, d, t.confirmed, t.deaths, t.dosesAdministered)] + rest)
  }

  /** Reading the stored dates back gives the dates that were written. */
  lemma StoredDatesRoundTrip(timeSeries: seq<TimeSeriesRow<Date>>)
    requires forall i :: 0 <= i < |timeSeries| ==> IsFullDate(timeSeries[i].reportedOn)
    ensures ParseStoredDates(FormatDates(timeSeries)) == Ok(timeSeries)
  {
    var stored := FormatDates(timeSeries);
    forall i | 0 <= i < |timeSeries| ensures ParseIso(stored[i].reportedOn) == Some(timeSeries[i].reportedOn) {
      IsoRoundTrip(timeSeries[i].reportedOn);
    }
    assert ParseStoredDates(stored).value == timeSeries;
  }

  /** `filter_time_series`: the selected country's rows, once for each of the three charts. */
  function FilterTimeSeries(timeSeries: seq<TimeSeriesRow<Date>>, selectedCountry: string)
    : (r: (seq<TimeSeriesRow<Date>>, seq<TimeSeriesRow<Date>>, seq<TimeSeriesRow<Date>>))
    ensures r.0 == r.1 == r.2
    ensures forall x :: x in r.0 <==> x in timeSeries && x.country == selectedCountry
  {
    var filtered := Filter(timeSeries, (t: TimeSeriesRow<Date>) => t.country == selectedCountry);
    (filtered, filtered, filtered)
  }

  /**
   * On a series in (country, date) order, as the database holds it, each
   * chart's rows are in strictly increasing date order: one point per day.
   */
  lemma ChartDatesIncrease(timeSeries: seq<TimeSeriesRow<Date>>, selectedCountry: string)
    requires forall i, j :: 0 <= i < j < |timeSeries| ==> SeriesLess(timeSeries[i], timeSeries[j])
    ensures var chart := FilterTimeSeries(timeSeries, selectedCountry).0;
      forall i, j :: 0 <= i < j < |chart| ==> Before(chart[i].reportedOn, chart[j].reportedOn)
  {
    var keep := (t: TimeSeriesRow<Date>) => t.country == selectedCountry;
    var chart := Filter(timeSeries, keep);
    FilterKeepsOrder(timeSeries, keep, SeriesLess);
    forall i, j | 0 <= i < j < |chart| ensures Before(chart[i].reportedOn, chart[j].reportedOn) {
      assert chart[i] in chart && chart[j] in chart;
      LexLessIrreflexive(selectedCountry);
    }
  }

  /** What the database run writes reads back as a series whose charts ascend by date. */
  lemma StoredSeriesCharts(confirmed: Melt.WideTable, deaths: Melt.WideTable, vaccine: Frame<Cell>, snapshot: Frame<Cell>, selectedCountry: string)
    requires Melt.WellFormed(confirmed) && Melt.WellFormed(deaths) && Rectangular(vaccine)
    requires Rectangular(snapshot) && UniqueLabels(snapshot.columns)
    requires CreateDatabase(confirmed, deaths, vaccine, snapshot).Ok?
    ensures ParseStoredDates(CreateDatabase(confirmed, deaths, vaccine, snapshot).value.0).Ok?
    ensures var chart := FilterTimeSeries(ParseStoredDates(CreateDatabase(confirmed, deaths, vaccine, snapshot).value.0).value, selectedCountry).0;
      forall i, j :: 0 <= i < j < |chart| ==> Before(chart[i].reportedOn, chart[j].reportedOn)
  {
    var ts := CreateTimeSeries(confirmed, deaths, vaccine).value;
    assert CreateDatabase(confirmed, deaths, vaccine, snapshot).value.0 == FormatDates(ts);
    StoredDatesRoundTrip(ts);
    ChartDatesIncrease(ts, selectedCountry);
  }
}

=== FILE: dates.dfy ===
/**
 * Calendar dates as the pipeline sees them: the `M/D/YY` column headers of
 * the wide time-series files, parsed with the format `%m/%d/%y`, and the
 * stored `YYYY-MM-DD` form written with `%Y-%m-%d` (the `full-date` of
 * section 5.6 of RFC 3339).
 */
module Dates {
  import opened Wrappers
  import opened Ordering

  /** A proleptic Gregorian calendar date, as Python's `datetime.date`. */
  datatype Date = Date(year: int, month: int, day: int)

  predicate IsLeapYear(year: int)
  {
    year % 4 == 0 && (year % 100 != 0 || year % 400 == 0)
  }

  function DaysInMonth(year: int, month: int): int
  {
    if month == 2 then (if IsLeapYear(year) then 29 else 28)
    else if month == 4 || month == 6 || month == 9 || month == 11 then 30
    else 31
  }

  /** The dates Python's date constructor accepts (the year range aside). */
  predicate IsValid(d: Date)
  {
    1 <= d.month <= 12 && 1 <= d.day <= DaysInMonth(d.year, d.month)
  }

  /** A date that `%Y-%m-%d` writes with a four-digit year. */
  predicate IsFullDate(d: Date)
  {
    IsValid(d) && 0 <= d.year <= 9999
  }

  /** Chronological order. */
  predicate Before(a: Date, b: Date)
  {
    a.year < b.year || (a.year == b.year && (a.month < b.month || (a.month == b.month && a.day < b.day)))
  }

  lemma BeforeIsStrictTotalOrder()
    ensures StrictTotalOrder(Before)
  {
  }

  // ---------------------------------------------------------------------
  // Decimal digits

  predicate IsDigit(c: char)
  {
    '0' <= c <= '9'
  }

  predicate AllDigits(s: string)
  {
    forall i :: 0 <= i < |s| ==> IsDigit(s[i])
  }

  function DigitChar(n: int): (c: char)
    requires 0 <= n <= 9
    ensures IsDigit(c)
  {
    (('0' as int) + n) as char
  }

  function DigitOf(c: char): (n: int)
    requires IsDigit(c)
    ensures 0 <= n <= 9 && DigitChar(n) == c
  {
    (c as int) - ('0' as int)
  }

  function Pow10(width: nat): nat
  {
    if width == 0 then 1 else 10 * Pow10(width - 1)
  }

  /** `n` written with exactly `width` decimal digits, zero-padded on the left. */
  function Padded(n: nat, width: nat): (s: string)
    ensures |s| == width && AllDigits(s)
  {
    if width == 0 then [] else Padded(n / 10, width - 1) + [DigitChar(n % 10)]
  }

  /** The number a string of decimal digits denotes. */
  function DigitsValue(s: string): (n: nat)
    requires AllDigits(s)
    ensures n < Pow10(|s|)
  {
    if s == [] then 0 else 10 * DigitsValue(s[..|s| - 1]) + DigitOf(s[|s| - 1])
  }

  lemma {:induction false} PaddedValue(n: nat, width: nat)
    requires n < Pow10(width)
    ensures DigitsValue(Padded(n, width)) == n
  {
    if width != 0 {
      var s := Padded(n, width);
      assert s[..|s| - 1] == Padded(n / 10, width - 1);
      assert n / 10 < Pow10(width - 1);
      PaddedValue(n / 10, width - 1);
    }
  }

  lemma LastDigit(v: nat, d: nat)
    requires d <= 9
    ensures (10 * v + d) / 10 == v && (10 * v + d) % 10 == d
  {
  }

  lemma {:induction false} ValuePadded(s: string)
    requires AllDigits(s)
    ensures Padded(DigitsValue(s), |s|) == s
  {
    if s != [] {
      var p := s[..|s| - 1];
      ValuePadded(p);
      var v, d := DigitsValue(p), DigitOf(s[|s| - 1]);
      LastDigit(v, d);
      assert Padded(10 * v + d, |s|) == Padded(v, |p|) + [DigitChar(d)];
      assert s == p + [s[|s| - 1]];
    }
  }

  /** Zero-padded numbers of one width sort as strings exactly as they sort as numbers. */
  lemma {:induction false} PaddedOrder(x: nat, y: nat, width: nat)
    requires x < Pow10(width) && y < Pow10(width)
    ensures LexLess(Padded(x, width), Padded(y, width)) <==> x < y
  {
    if width == 0 {
      LexLessIrreflexive([]);
    } else {
      var px, py := Padded(x / 10, width - 1), Padded(y / 10, width - 1);
      assert x / 10 < Pow10(width - 1) && y / 10 < Pow10(width - 1);
      PaddedOrder(x / 10, y / 10, width - 1);
      LexLessAppend(px, py, [DigitChar(x % 10)], [DigitChar(y % 10)]);
      PaddedValue(x / 10, width - 1);
      PaddedValue(y / 10, width - 1);
      assert px == py <==> x / 10 == y / 10;
      assert LexLess([DigitChar(x % 10)], [DigitChar(y % 10)]) <==> x % 10 < y % 10;
      assert x < y <==> x / 10 < y / 10 || (x / 10 == y / 10 && x % 10 < y % 10);
    }
  }

  lemma AppendEqual(p: string, q: string, u: string, v: string)
    requires |p| == |q|
    ensures p + u == q + v <==> p == q && u == v
  {
    if p + u == q + v {
      assert p == (p + u)[..|p|] && q == (q + v)[..|q|];
      assert u == (p + u)[|p|..] && v == (q + v)[|q|..];
    }
  }

  // ---------------------------------------------------------------------
  // The stored form: `%Y-%m-%d`

  /** `d.strftime("%Y-%m-%d")`. */
  function FormatIso(d: Date): (s: string)
    requires IsFullDate(d)
    ensures |s| == 10 && s[4] == '-' && s[7] == '-'
  {
    Padded(d.year, 4) + "-" + Padded(d.month, 2) + "-" + Padded(d.day, 2)
  }

  /** The RFC 3339 `full-date` parse: `YYYY-MM-DD`, digits only, a real calendar date. */
  function ParseIso(s: string): (r: Option<Date>)
    ensures r.Some? ==> IsFullDate(r.value)
  {
    if |s| == 10 && s[4] == '-' && s[7] == '-'
       && AllDigits(s[..4]) && AllDigits(s[5..7]) && AllDigits(s[8..])
    then
      var d := Date(DigitsValue(s[..4]), DigitsValue(s[5..7]), DigitsValue(s[8..]));
      if IsValid(d) then Some(d) else None
    else None
  }

  /** What ParseIso makes of three digit groups joined by dashes. */
  lemma ParseIsoPieces(y: string, m: string, d: string)
    requires |y| == 4 && |m| == 2 && |d| == 2 && AllDigits(y) && AllDigits(m) && AllDigits(d)
    ensures var date := Date(DigitsValue(y), DigitsValue(m), DigitsValue(d));
      ParseIso(y + "-" + m + "-" + d) == if IsValid(date) then Some(date) else None
  {
    var s := y + "-" + m + "-" + d;
    assert s[..4] == y && s[4] == '-' && s[5..7] == m && s[7] == '-' && s[8..] == d;
  }

  lemma {:induction false} IsoRoundTrip(d: Date)
    requires IsFullDate(d)
    ensures ParseIso(FormatIso(d)) == Some(d)
  {
    assert Pow10(2) == 100 && Pow10(4) == 10000;
    PaddedValue(d.year, 4);
    PaddedValue(d.month, 2);
    PaddedValue(d.day, 2);
    ParseIsoPieces(Padded(d.year, 4), Padded(d.month, 2), Padded(d.day, 2));
  }

  /** Only the canonical string parses to a date: the stored form is unique. */
  lemma {:induction false} IsoCanonical(s: string)
    requires ParseIso(s).Some?
    ensures FormatIso(ParseIso(s).value) == s
  {
    var d := ParseIso(s).value;
    ValuePadded(s[..4]);
    ValuePadded(s[5..7]);
    ValuePadded(s[8..]);
    assert s == s[..4] + "-" + s[5..7] + "-" + s[8..];
  }

  /** String order of stored dates is chronological order. */
  lemma {:induction false} IsoOrder(a: Date, b: Date)
    requires IsFullDate(a) && IsFullDate(b)
    ensures LexLess(FormatIso(a), FormatIso(b)) <==> Before(a, b)
  {
    assert Pow10(2) == 100 && Pow10(4) == 10000;
    var ya, ma, da := Padded(a.year, 4), Padded(a.month, 2), Padded(a.day, 2);
    var yb, mb, db := Padded(b.year, 4), Padded(b.month, 2), Padded(b.day, 2);
    PaddedOrder(a.year, b.year, 4);
    PaddedOrder(a.month, b.month, 2);
    PaddedOrder(a.day, b.day, 2);
    PaddedValue(a.year, 4); PaddedValue(b.year, 4);
    PaddedValue(a.month, 2); PaddedValue(b.month, 2);
    assert ya == yb <==> a.year == b.year;
    assert ma == mb <==> a.month == b.month;
    LexLessIrreflexive("-");
    // year and dash
    LexLessAppend(ya, yb, "-", "-");
    AppendEqual(ya, yb, "-", "-");
    // ... then the month
    LexLessAppend(ya + "-", yb + "-", ma, mb);
    AppendEqual(ya + "-", yb + "-", ma, mb);
    // ... then the second dash
    LexLessAppend(ya + "-" + ma, yb + "-" + mb, "-", "-");
    AppendEqual(ya + "-" + ma, yb + "-" + mb, "-", "-");
    // ... then the day
    LexLessAppend(ya + "-" + ma + "-", yb + "-" + mb + "-", da, db);
  }

  // ---------------------------------------------------------------------
  // The column headers: `%m/%d/%y`

  /** The position of the first `c` in `s`. */
  function FirstIndex(s: string, c: char): (r: Option<nat>)
    ensures r.Some? ==> r.value < |s| && s[r.value] == c && c !in s[..r.value]
    ensures r.None? ==> c !in s
  {
    if s == [] then None
    else if s[0] == c then Some(0)
    else
      match FirstIndex(s[1..], c)
      case None => None
      case Some(i) =>
        assert s[..i + 1] == [s[0]] + s[1..][..i];
        Some(i + 1)
  }

  /** `%m`: one digit 1-9, or two digits 01-12. */
  function MonthField(f: string): (r: Option<int>)
    ensures r.Some? ==> 1 <= r.value <= 12
  {
    if |f| == 1 && '1' <= f[0] <= '9' then Some(DigitOf(f[0]))
    else if |f| == 2 && AllDigits(f) && 1 <= DigitsValue(f) <= 12 then Some(DigitsValue(f))
    else None
  }

  /** `%d`: one digit 1-9, two digits 01-31, or a space and one digit 1-9. */
  function DayField(f: string): (r: Option<int>)
    ensures r.Some? ==> 1 <= r.value <= 31
  {
    if |f| == 1 && '1' <= f[0] <= '9' then Some(DigitOf(f[0]))
    else if |f| == 2 && AllDigits(f) && 1 <= DigitsValue(f) <= 31 then Some(DigitsValue(f))
    else if |f| == 2 && f[0] == ' ' && '1' <= f[1] <= '9' then Some(DigitOf(f[1]))
    else None
  }

  /** `%y`: exactly two digits; 00-68 are 2000-2068 and 69-99 are 1969-1999. */
  function YearField(f: string): (r: Option<int>)
    ensures r.Some? ==> 1969 <= r.value <= 2068
  {
    if |f| == 2 && AllDigits(f) then
      var v := DigitsValue(f);
      assert Pow10(2) == 100;
      Some(if v <= 68 then 2000 + v else 1900 + v)
    else None
  }

  /**
   * `pd.to_datetime(header, format="%m/%d/%y")`: None where the `%m/%d/%y`
   * pattern or the calendar rejects the header
   * (a header of another shape, or a day the month does not have).
   */
  function ParseHeader(h: string): (r: Option<Date>)
    ensures r.Some? ==> IsFullDate(r.value) && 1969 <= r.value.year <= 2068
  {
    match FirstIndex(h, '/')
    case None => None
    case Some(i) =>
      var rest := h[i + 1..];
      match FirstIndex(rest, '/')
      case None => None
      case Some(j) =>
        var m, d, y := MonthField(h[..i]), DayField(rest[..j]), YearField(rest[j + 1..]);
        if m.Some? && d.Some? && y.Some? && IsValid(Date(y.value, m.value, d.value))
        then Some(Date(y.value, m.value, d.value))
        else None
  }

  /** A month or day number without leading zero, as the source files write them. */
  function Unpadded(n: int): (s: string)
    requires 1 <= n <= 99
    ensures AllDigits(s) && 1 <= |s| <= 2
  {
    if n < 10 then [DigitChar(n)] else Padded(n, 2)
  }

  /** The header the source files use for a date: `M/D/YY`, e.g. `1/22/20`. */
  function FormatHeader(d: Date): (h: string)
    requires IsValid(d) && 1969 <= d.year <= 2068
  {
    Unpadded(d.month) + "/" + Unpadded(d.day) + "/" + Padded(d.year % 100, 2)
  }

  lemma {:induction false} FirstIndexAfter(p: string, c: char, q: string)
    requires c !in p
    ensures FirstIndex(p + [c] + q, c) == Some(|p|)
  {
    if p != [] {
      assert (p + [c] + q)[1..] == p[1..] + [c] + q;
      FirstIndexAfter(p[1..], c, q);
    }
  }

  lemma UnpaddedValue(n: int)
    requires 1 <= n <= 99
    ensures |Unpadded(n)| == 1 ==> DigitOf(Unpadded(n)[0]) == n
    ensures |Unpadded(n)| == 2 ==> DigitsValue(Unpadded(n)) == n && n >= 10
  {
    if n >= 10 {
      assert Pow10(2) == 100;
      PaddedValue(n, 2);
    }
  }

  /** A header whose first two fields hold no slash splits at its first two slashes. */
  lemma HeaderSplit(m: string, dd: string, y: string)
    requires '/' !in m && '/' !in dd
    ensures var f := (MonthField(m), DayField(dd), YearField(y));
      ParseHeader(m + "/" + dd + "/" + y) ==
        if f.0.Some? && f.1.Some? && f.2.Some? && IsValid(Date(f.2.value, f.0.value, f.1.value))
        then Some(Date(f.2.value, f.0.value, f.1.value)) else None
  {
    var h := m + "/" + dd + "/" + y;
    assert h == m + "/" + (dd + "/" + y);
    FirstIndexAfter(m, '/', dd + "/" + y);
    assert h[..|m|] == m;
    var rest := h[|m| + 1..];
    assert rest == dd + "/" + y;
    FirstIndexAfter(dd, '/', y);
    assert rest[..|dd|] == dd && rest[|dd| + 1..] == y;
  }

  lemma YearFieldRoundTrip(year: int)
    requires 1969 <= year <= 2068
    ensures YearField(Padded(year % 100, 2)) == Some(year)
  {
    assert Pow10(2) == 100;
    PaddedValue(year % 100, 2);
  }

  lemma UnpaddedField(n: int)
    requires 1 <= n <= 31
    ensures '/' !in Unpadded(n)
    ensures n <= 12 ==> MonthField(Unpadded(n)) == Some(n)
    ensures DayField(Unpadded(n)) == Some(n)
  {
    UnpaddedValue(n);
  }

  /** Every date from 1969 to 2068 survives being written as a header and parsed back. */
  lemma {:induction false} HeaderRoundTrip(d: Date)
    requires IsValid(d) && 1969 <= d.year <= 2068
    ensures ParseHeader(FormatHeader(d)) == Some(d)
  {
    UnpaddedField(d.month);
    UnpaddedField(d.day);
    YearFieldRoundTrip(d.year);
    HeaderSplit(Unpadded(d.month), Unpadded(d.day), Padded(d.year % 100, 2));
  }
}

=== FILE: frames.dfy ===
/**
 * The pandas column operations the pipeline applies to whole tables:
 * `rename(columns=...)`, `drop(..., axis=1)`, `df[[...]]` and
 * `df.columns = [...]`. A table is its column labels and its rows of cells.
 */
module Frames {
  import opened Wrappers
  import Dates

  /** One cell of a table as read from CSV; `Null` is pandas' NaN / NaT. */
  datatype Cell = Null | Text(text: string) | Count(count: int) | Decimal(decimal: real) | Day(date: Dates.Date)

  /** The exceptions the pipeline can raise. */
  datatype Error =
    | KeyError(name: string)                    // a column label that is not there
    | LengthMismatch(expected: nat, given: nat)  // `df.columns = ...` with the wrong number of names
    | ParseError(text: string)                  // a date header `%m/%d/%y` does not match

  datatype Frame<C> = Frame(columns: seq<string>, rows: seq<seq<C>>)

  /** Every row has one cell per column, as every DataFrame does. */
  predicate Rectangular<C>(f: Frame<C>)
  {
    forall i :: 0 <= i < |f.rows| ==> |f.rows[i]| == |f.columns|
  }

  /** No label twice, as `read_csv` guarantees by renaming duplicates. */
  predicate UniqueLabels(columns: seq<string>)
  {
    forall i, j :: 0 <= i < j < |columns| ==> columns[i] != columns[j]
  }

  /** The elements of `s` at the positions `idx`, in that order. */
  function Pick<X>(s: seq<X>, idx: seq<nat>): (r: seq<X>)
    requires forall k :: 0 <= k < |idx| ==> idx[k] < |s|
    ensures |r| == |idx| && forall k :: 0 <= k < |idx| ==> r[k] == s[idx[k]]
  {
    seq(|idx|, k requires 0 <= k < |idx| => s[idx[k]])
  }

  function Renamed(name: string, mapping: map<string, string>): string
  {
    if name in mapping then mapping[name] else name
  }

  /** `df.rename(columns=mapping)`: labels the mapping names are replaced, all else is kept. */
  function Rename<C>(f: Frame<C>, mapping: map<string, string>): (r: Frame<C>)
    ensures r.rows == f.rows && |r.columns| == |f.columns|
    ensures forall j :: 0 <= j < |f.columns| ==>
      (f.columns[j] in mapping ==> r.columns[j] == mapping[f.columns[j]]) &&
      (f.columns[j] !in mapping ==> r.columns[j] == f.columns[j])
  {
    Frame(seq(|f.columns|, j requires 0 <= j < |f.columns| => Renamed(f.columns[j], mapping)), f.rows)
  }

  /** The first of `labels` that is not a column. */
  function FirstMissing(labels: seq<string>, columns: seq<string>): (r: Option<string>)
    ensures r.Some? ==> r.value in labels && r.value !in columns
    ensures r.None? ==> forall l :: l in labels ==> l in columns
  {
    if labels == [] then None
    else if labels[0] !in columns then Some(labels[0])
    else FirstMissing(labels[1..], columns)
  }

  /** The positions from `from` on whose label is not one of `labels`, ascending. */
  function KeptPositions(columns: seq<string>, labels: seq<string>, from: nat): (r: seq<nat>)
    requires from <= |columns|
    ensures forall a, b :: 0 <= a < b < |r| ==> r[a] < r[b]
    ensures forall k :: 0 <= k < |r| ==> from <= r[k] < |columns| && columns[r[k]] !in labels
    decreases |columns| - from
  {
    if from == |columns| then []
    else if columns[from] in labels then KeptPositions(columns, labels, from + 1)
    else [from] + KeptPositions(columns, labels, from + 1)
  }

  /** Every position from `from` on whose label is not one of `labels` is kept. */
  lemma {:induction false} KeptPositionsComplete(columns: seq<string>, labels: seq<string>, from: nat, j: nat)
    requires from <= j < |columns| && columns[j] !in labels
    ensures j in KeptPositions(columns, labels, from)
    decreases j - from
  {
    if from < j {
      KeptPositionsComplete(columns, labels, from + 1, j);
    }
  }

  lemma KeptLabels(columns: seq<string>, labels: seq<string>)
    ensures forall c :: c in Pick(columns, KeptPositions(columns, labels, 0)) <==> c in columns && c !in labels
  {
    var keep := KeptPositions(columns, labels, 0);
    var cols := Pick(columns, keep);
    forall c | c in cols ensures c in columns && c !in labels {
      var k :| 0 <= k < |cols| && cols[k] == c;
      assert columns[keep[k]] == c;
    }
    forall c | c in columns && c !in labels ensures c in cols {
      var j :| 0 <= j < |columns| && columns[j] == c;
      KeptPositionsComplete(columns, labels, 0, j);
      var k :| 0 <= k < |keep| && keep[k] == j;
      assert cols[k] == c;
    }
  }

  /**
   * `df.drop(labels, axis=1)`: a KeyError names a label that is not a
   * column; otherwise every column carrying one of the labels is removed
   * and the others keep their order and their cells.
   */
  function Drop<C>(f: Frame<C>, labels: seq<string>): (r: Result<Frame<C>, Error>)
    requires Rectangular(f)
    ensures r.Err? <==> exists l :: l in labels && l !in f.columns
    ensures r.Err? ==> r.error.KeyError? && r.error.name in labels && r.error.name !in f.columns
    ensures r.Ok? ==> Rectangular(r.value) && |r.value.rows| == |f.rows|
    ensures r.Ok? ==> forall c :: c in r.value.columns <==> c in f.columns && c !in labels
    ensures r.Ok? ==>
      var keep := KeptPositions(f.columns, labels, 0);
      r.value.columns == Pick(f.columns, keep) &&
      forall i :: 0 <= i < |f.rows| ==> r.value.rows[i] == Pick(f.rows[i], keep)
  {
    match FirstMissing(labels, f.columns)
    case Some(l) => Err(KeyError(l))
    case None =>
      var keep := KeptPositions(f.columns, labels, 0);
      KeptLabels(f.columns, labels);
      Ok(Frame(Pick(f.columns, keep), seq(|f.rows|, i requires 0 <= i < |f.rows| => Pick(f.rows[i], keep))))
  }

  /** The position of `label` among the columns: the first, and with unique labels the only one. */
  function IndexOf(columns: seq<string>, name: string): (r: nat)
    requires name in columns
    ensures r < |columns| && columns[r] == name && name !in columns[..r]
  {
    if columns[0] == name then 0
    else
      var r := IndexOf(columns[1..], name) + 1;
      assert columns[..r] == [columns[0]] + columns[1..][..r - 1];
      r
  }

  /**
   * `df[labels]` with a list of labels: a KeyError names a label that is
   * not a column; otherwise the result has exactly those columns, in that
   * order, each with its cells, and every row.
   */
  function Select<C>(f: Frame<C>, labels: seq<string>): (r: Result<Frame<C>, Error>)
    requires Rectangular(f) && UniqueLabels(f.columns)
    ensures r.Err? <==> exists l :: l in labels && l !in f.columns
    ensures r.Err? ==> r.error.KeyError? && r.error.name in labels && r.error.name !in f.columns
    ensures r.Ok? ==> r.value.columns == labels && |r.value.rows| == |f.rows| && Rectangular(r.value)
    ensures r.Ok? ==> forall i, k :: 0 <= i < |f.rows| && 0 <= k < |labels| ==>
      labels[k] in f.columns && r.value.rows[i][k] == f.rows[i][IndexOf(f.columns, labels[k])]
  {
    match FirstMissing(labels, f.columns)
    case Some(l) => Err(KeyError(l))
    case None =>
      var idx := seq(|labels|, k requires 0 <= k < |labels| => IndexOf(f.columns, labels[k]));
      Ok(Frame(labels, seq(|f.rows|, i requires 0 <= i < |f.rows| => Pick(f.rows[i], idx))))
  }

  /** `df.columns = names`: a ValueError unless there is one name per column; the rows stay. */
  function SetColumns<C>(f: Frame<C>, names: seq<string>): (r: Result<Frame<C>, Error>)
    ensures r.Ok? <==> |names| == |f.columns|
    ensures r.Ok? ==> r.value == Frame(names, f.rows)
    ensures r.Err? ==> r.error == LengthMismatch(|f.columns|, |names|)
  {
    if |names| == |f.columns| then Ok(Frame(names, f.rows))
    else Err(LengthMismatch(|f.columns|, |names|))
  }
}

=== FILE: grouping.dfy ===
/**
 * Keyed sums: the arithmetic behind pandas' `groupby(...).sum()` and
 * `Series.sum()`. A group's sum is the sum of the metric over the rows
 * carrying that key; summing every group of a covering, duplicate-free key
 * list gives back the total of the whole table.
 */
module Grouping {

  /** The sum of `val` over the rows of `xs` whose key is `k`, in row order. */
  function SumWhere<T, K(==)>(xs: seq<T>, key: T -> K, val: T -> int, k: K): int
  {
    if xs == [] then 0
    else (if key(xs[0]) == k then val(xs[0]) else 0) + SumWhere(xs[1..], key, val, k)
  }

  /** The sum of `val` over every row of `xs`. */
  function Total<T>(xs: seq<T>, val: T -> int): int
  {
    if xs == [] then 0 else val(xs[0]) + Total(xs[1..], val)
  }

  /** The group sums of the keys `ks`, added up. */
  function SumEach<T, K(==)>(ks: seq<K>, xs: seq<T>, key: T -> K, val: T -> int): int
  {
    if ks == [] then 0 else SumWhere(xs, key, val, ks[0]) + SumEach(ks[1..], xs, key, val)
  }

  predicate Distinct<K(==)>(ks: seq<K>)
  {
    forall i, j :: 0 <= i < j < |ks| ==> ks[i] != ks[j]
  }

  /** What one row with key `k0` and value `v` adds to the group sums of `ks`. */
  function Share<K(==)>(ks: seq<K>, k0: K, v: int): int
  {
    if ks == [] then 0 else (if ks[0] == k0 then v else 0) + Share(ks[1..], k0, v)
  }

  lemma {:induction false} ShareDistinct<K>(ks: seq<K>, k0: K, v: int)
    requires Distinct(ks)
    ensures Share(ks, k0, v) == if k0 in ks then v else 0
  {
    if ks != [] {
      assert Distinct(ks[1..]);
      ShareDistinct(ks[1..], k0, v);
      assert ks[0] == k0 ==> k0 !in ks[1..];
      assert k0 in ks <==> ks[0] == k0 || k0 in ks[1..];
    }
  }

  lemma {:induction false} SumEachFirstRow<T, K>(ks: seq<K>, xs: seq<T>, key: T -> K, val: T -> int)
    requires xs != []
    ensures SumEach(ks, xs, key, val) == Share(ks, key(xs[0]), val(xs[0])) + SumEach(ks, xs[1..], key, val)
  {
    if ks != [] {
      SumEachFirstRow(ks[1..], xs, key, val);
    }
  }

  /**
   * Conservation: the group sums over a duplicate-free list of keys that
   * covers every row add up to the table's total; no row is lost or counted
   * twice.
   */
  lemma {:induction false} Conservation<T, K>(ks: seq<K>, xs: seq<T>, key: T -> K, val: T -> int)
    requires Distinct(ks)
    requires forall i :: 0 <= i < |xs| ==> key(xs[i]) in ks
    ensures SumEach(ks, xs, key, val) == Total(xs, val)
  {
    if xs == [] {
      SumEachEmpty(ks, xs, key, val);
    } else {
      SumEachFirstRow(ks, xs, key, val);
      ShareDistinct(ks, key(xs[0]), val(xs[0]));
      Conservation(ks, xs[1..], key, val);
    }
  }

  lemma {:induction false} SumEachEmpty<T, K>(ks: seq<K>, xs: seq<T>, key: T -> K, val: T -> int)
    requires xs == []
    ensures SumEach(ks, xs, key, val) == 0
  {
    if ks != [] {
      SumEachEmpty(ks[1..], xs, key, val);
    }
  }

  /** A key that no row carries sums to 0. */
  lemma {:induction false} SumWhereAbsent<T, K>(xs: seq<T>, key: T -> K, val: T -> int, k: K)
    requires forall i :: 0 <= i < |xs| ==> key(xs[i]) != k
    ensures SumWhere(xs, key, val, k) == 0
  {
    if xs != [] {
      SumWhereAbsent(xs[1..], key, val, k);
    }
  }

  /** A key that only row `i` carries sums to that row's own value. */
  lemma {:induction false} SumWhereSingle<T, K>(xs: seq<T>, key: T -> K, val: T -> int, i: nat)
    requires i < |xs|
    requires forall j :: 0 <= j < |xs| && j != i ==> key(xs[j]) != key(xs[i])
    ensures SumWhere(xs, key, val, key(xs[i])) == val(xs[i])
  {
    if i == 0 {
      SumWhereAbsent(xs[1..], key, val, key(xs[0]));
    } else {
      SumWhereSingle(xs[1..], key, val, i - 1);
    }
  }

  /** Two sequences whose values agree position by position have the same total. */
  lemma {:induction false} TotalMap<T, U>(xs: seq<T>, ys: seq<U>, vx: T -> int, vy: U -> int)
    requires |xs| == |ys|
    requires forall i :: 0 <= i < |xs| ==> vx(xs[i]) == vy(ys[i])
    ensures Total(xs, vx) == Total(ys, vy)
  {
    if xs != [] {
      assert vx(xs[0]) == vy(ys[0]);
      TotalMap(xs[1..], ys[1..], vx, vy);
    }
  }
}

=== FILE: melt.dfy ===
/**
 * `pd.melt(df, id_vars=["Province/State", "Country/Region", "Lat", "Long"],
 * var_name="Date", value_name=...)` on a wide time-series table: one long
 * row per (source row, date column), grouped by date column in column
 * order and, within a column, in source row order.
 */
module Melt {
  import opened Wrappers
  import opened Frames

  /** A row of a wide file: the id columns, then one count per date column. */
  datatype WideRow = WideRow(province: Option<string>, country: string, lat: Cell, long: Cell, counts: seq<int>)

  /** A wide file: the date-column headers (every column that is not an id column) and the rows. */
  datatype WideTable = WideTable(dateHeaders: seq<string>, rows: seq<WideRow>)

  /** Every row has one count per date column. */
  predicate WellFormed(t: WideTable)
  {
    forall i :: 0 <= i < |t.rows| ==> |t.rows[i].counts| == |t.dateHeaders|
  }

  /** A melted row: the id columns, the date column's header and that cell's value. */
  datatype LongRow = LongRow(province: Option<string>, country: string, lat: Cell, long: Cell, date: string, value: int)

  /** The long row that source row `i` and date column `j` become. */
  function Observation(t: WideTable, j: nat, i: nat): LongRow
    requires WellFormed(t) && j < |t.dateHeaders| && i < |t.rows|
  {
    var w := t.rows[i];
    LongRow(w.province, w.country, w.lat, w.long, t.dateHeaders[j], w.counts[j])
  }

  function MeltColumn(t: WideTable, j: nat): (r: seq<LongRow>)
    requires WellFormed(t) && j < |t.dateHeaders|
    ensures |r| == |t.rows|
    ensures forall i :: 0 <= i < |r| ==> r[i].date == t.dateHeaders[j] && r[i].country == t.rows[i].country
  {
    seq(|t.rows|, i requires 0 <= i < |t.rows| => Observation(t, j, i))
  }

  function MeltFrom(t: WideTable, j: nat): (r: seq<LongRow>)
    requires WellFormed(t) && j <= |t.dateHeaders|
    ensures forall k :: 0 <= k < |r| ==> r[k].date in t.dateHeaders[j..]
    decreases |t.dateHeaders| - j
  {
    if j == |t.dateHeaders| then [] else MeltColumn(t, j) + MeltFrom(t, j + 1)
  }

  /** `pd.melt` of a wide table: every long row is dated by one of the date headers. */
  function Melt(t: WideTable): (r: seq<LongRow>)
    requires WellFormed(t)
    ensures forall k :: 0 <= k < |r| ==> r[k].date in t.dateHeaders
  {
    assert t.dateHeaders[0..] == t.dateHeaders;
    MeltFrom(t, 0)
  }

  /** `m * r + i`, counted out: m blocks of r rows, then i more. */
  function Offset(m: nat, r: nat, i: nat): nat
  {
    if m == 0 then i else r + Offset(m - 1, r, i)
  }

  lemma {:induction false} OffsetIsProduct(m: nat, r: nat, i: nat)
    ensures Offset(m, r, i) == m * r + i
  {
    if m != 0 {
      OffsetIsProduct(m - 1, r, i);
      assert m * r == (m - 1) * r + r;
    }
  }

  lemma {:induction false} MeltFromLength(t: WideTable, j: nat)
    requires WellFormed(t) && j <= |t.dateHeaders|
    ensures |MeltFrom(t, j)| == Offset(|t.dateHeaders| - j, |t.rows|, 0)
    decreases |t.dateHeaders| - j
  {
    if j < |t.dateHeaders| {
      MeltFromLength(t, j + 1);
      assert |t.dateHeaders| - j == (|t.dateHeaders| - (j + 1)) + 1;
    }
  }

  /** Position `m * R + i` of the melt from column `j` on is row `i` under column `j + m`. */
  lemma {:induction false} MeltFromAt(t: WideTable, j: nat, m: nat, i: nat)
    requires WellFormed(t) && j + m < |t.dateHeaders| && i < |t.rows|
    ensures Offset(m, |t.rows|, i) < |MeltFrom(t, j)|
    ensures MeltFrom(t, j)[Offset(m, |t.rows|, i)] == Observation(t, j + m, i)
    decreases m
  {
    var col, tail := MeltColumn(t, j), MeltFrom(t, j + 1);
    assert MeltFrom(t, j) == col + tail;
    if m == 0 {
      assert MeltFrom(t, j)[i] == col[i];
    } else {
      MeltFromAt(t, j + 1, m - 1, i);
      assert Offset(m, |t.rows|, i) == |t.rows| + Offset(m - 1, |t.rows|, i);
      assert MeltFrom(t, j)[Offset(m, |t.rows|, i)] == tail[Offset(m - 1, |t.rows|, i)];
    }
  }

  /** Melting R rows with D date columns gives R * D rows. */
  lemma MeltLength(t: WideTable)
    requires WellFormed(t)
    ensures |Melt(t)| == |t.dateHeaders| * |t.rows|
  {
    MeltFromLength(t, 0);
    OffsetIsProduct(|t.dateHeaders|, |t.rows|, 0);
  }

  /**
   * The melted row at position j * R + i is source row i under date column
   * j: that row's id columns, the column's header and the cell's value.
   */
  lemma MeltAt(t: WideTable, j: nat, i: nat)
    requires WellFormed(t) && j < |t.dateHeaders| && i < |t.rows|
    ensures j * |t.rows| + i < |Melt(t)|
    ensures Melt(t)[j * |t.rows| + i] == LongRow(t.rows[i].province, t.rows[i].country, t.rows[i].lat,
                                                 t.rows[i].long, t.dateHeaders[j], t.rows[i].counts[j])
  {
    MeltFromAt(t, 0, j, i);
    OffsetIsProduct(j, |t.rows|, i);
  }

  /**
   * Two wide tables with the same number of rows and the same date
   * headers melt into row-for-row the same sequence of dates.
   */
  lemma {:induction false} MeltSameLayout(a: WideTable, b: WideTable, j: nat)
    requires WellFormed(a) && WellFormed(b) && j <= |a.dateHeaders|
    requires |a.rows| == |b.rows| && a.dateHeaders == b.dateHeaders
    ensures |MeltFrom(a, j)| == |MeltFrom(b, j)|
    ensures forall k :: 0 <= k < |MeltFrom(a, j)| ==> MeltFrom(a, j)[k].date == MeltFrom(b, j)[k].date
    decreases |a.dateHeaders| - j
  {
    if j < |a.dateHeaders| {
      MeltSameLayout(a, b, j + 1);
    }
  }
}

=== FILE: merge.dfy ===
/**
 * `pd.merge(left, right, on=["Province/State", "Country/Region", "Date"],
 * how="left")`: every left row is kept, in order; it is paired with each
 * right row carrying its key, in right-table order, or with a null when
 * there is none. Right rows whose key no left row has are dropped.
 */
module Merge {
  import opened Wrappers
  import opened Dates

  /**
   * The join key. A missing province is `None`, and pandas' merge lets a
   * missing key value match a missing one: structural equality does the same.
   */
  datatype Key = Key(province: Option<string>, country: string, date: Date)

  /** A left row: its key and its other columns. */
  datatype Anchored<A> = Anchored(key: Key, payload: A)

  /**
   * A right row. Its key is `None` when its key cells can equal no left key
   * (a NaT date, a country that is not text): such a row never matches.
   */
  datatype Keyed<V> = Keyed(key: Option<Key>, value: V)

  /** The values of the right rows with key `k`, in right-table order. */
  function Matches<V>(right: seq<Keyed<V>>, k: Key): (r: seq<V>)
    ensures |r| <= |right|
  {
    if right == [] then []
    else (if right[0].key == Some(k) then [right[0].value] else []) + Matches(right[1..], k)
  }

  /** The rows one left row becomes. */
  function MergeRow<A, V>(l: Anchored<A>, right: seq<Keyed<V>>): (r: seq<Anchored<(A, Option<V>)>>)
    ensures |r| >= 1
    ensures forall x :: x in r ==> x.key == l.key && x.payload.0 == l.payload
  {
    var ms := Matches(right, l.key);
    if ms == [] then [Anchored(l.key, (l.payload, None))]
    else seq(|ms|, i requires 0 <= i < |ms| => Anchored(l.key, (l.payload, Some(ms[i]))))
  }

  /** The left merge of `left` with `right`. */
  function LeftMerge<A, V>(left: seq<Anchored<A>>, right: seq<Keyed<V>>): (r: seq<Anchored<(A, Option<V>)>>)
    ensures |r| >= |left|
  {
    if left == [] then [] else MergeRow(left[0], right) + LeftMerge(left[1..], right)
  }

  /** The first right row with key `k`: the reference for what a left row is paired with. */
  function Lookup<V>(right: seq<Keyed<V>>, k: Key): Option<V>
  {
    if right == [] then None
    else if right[0].key == Some(k) then Some(right[0].value)
    else Lookup(right[1..], k)
  }

  /** No two right rows share a key. */
  predicate AtMostOneMatch<V>(right: seq<Keyed<V>>)
  {
    forall i, j :: 0 <= i < j < |right| && right[i].key.Some? ==> right[i].key != right[j].key
  }

  lemma {:induction false} LookupMeaning<V>(right: seq<Keyed<V>>, k: Key)
    ensures Lookup(right, k).None? <==> forall i :: 0 <= i < |right| ==> right[i].key != Some(k)
    ensures Lookup(right, k).Some? ==> Keyed(Some(k), Lookup(right, k).value) in right
  {
    if right != [] {
      LookupMeaning(right[1..], k);
      assert forall i :: 1 <= i < |right| ==> right[i] == right[1..][i - 1];
    }
  }

  lemma {:induction false} MatchesNone<V>(right: seq<Keyed<V>>, k: Key)
    requires forall i :: 0 <= i < |right| ==> right[i].key != Some(k)
    ensures Matches(right, k) == []
  {
    if right != [] {
      MatchesNone(right[1..], k);
    }
  }

  /** With unique right keys a key matches at most once, and that match is the lookup. */
  lemma {:induction false} MatchesUnique<V>(right: seq<Keyed<V>>, k: Key)
    requires AtMostOneMatch(right)
    ensures Matches(right, k) == if Lookup(right, k).Some? then [Lookup(right, k).value] else []
  {
    if right != [] {
      assert AtMostOneMatch(right[1..]);
      MatchesUnique(right[1..], k);
      if right[0].key == Some(k) {
        MatchesNone(right[1..], k);
      }
    }
  }

  /** The merge keeps the left table's order: it distributes over concatenation. */
  lemma {:induction false} LeftMergeAppend<A, V>(a: seq<Anchored<A>>, b: seq<Anchored<A>>, right: seq<Keyed<V>>)
    ensures LeftMerge(a + b, right) == LeftMerge(a, right) + LeftMerge(b, right)
  {
    if a == [] {
      assert a + b == b;
    } else {
      assert (a + b)[0] == a[0] && (a + b)[1..] == a[1..] + b;
      LeftMergeAppend(a[1..], b, right);
    }
  }

  /** The keys a table holds. */
  function KeysOf<A>(rows: seq<Anchored<A>>): set<Key>
  {
    set i | 0 <= i < |rows| :: rows[i].key
  }

  lemma KeysOfAppend<A>(a: seq<Anchored<A>>, b: seq<Anchored<A>>)
    ensures KeysOf(a + b) == KeysOf(a) + KeysOf(b)
  {
    var ab := a + b;
    forall k | k in KeysOf(ab) ensures k in KeysOf(a) + KeysOf(b) {
      var i :| 0 <= i < |ab| && ab[i].key == k;
      if i >= |a| {
        assert b[i - |a|].key == k;
      }
    }
    forall k | k in KeysOf(b) ensures k in KeysOf(ab) {
      var i :| 0 <= i < |b| && b[i].key == k;
      assert ab[|a| + i].key == k;
    }
    forall k | k in KeysOf(a) ensures k in KeysOf(ab) {
      var i :| 0 <= i < |a| && a[i].key == k;
      assert ab[i].key == k;
    }
  }

  /**
   * The merge has exactly the left table's keys: none is lost, and keys
   * present only on the right do not appear.
   */
  lemma {:induction false} LeftMergeKeys<A, V>(left: seq<Anchored<A>>, right: seq<Keyed<V>>)
    ensures KeysOf(LeftMerge(left, right)) == KeysOf(left)
  {
    if left != [] {
      LeftMergeKeys(left[1..], right);
      var head, tail := MergeRow(left[0], right), LeftMerge(left[1..], right);
      assert head[0].key == left[0].key;
      assert KeysOf(head) == {left[0].key};
      KeysOfAppend(head, tail);
      KeysOfAppend([left[0]], left[1..]);
      assert left == [left[0]] + left[1..];
    }
  }

  /**
   * When no two right rows share a key, the merge keeps the row count: row
   * i is left row i paired with the right row that has its key, or with a
   * null when no right row has it.
   */
  lemma {:induction false} LeftMergeUnique<A, V>(left: seq<Anchored<A>>, right: seq<Keyed<V>>)
    requires AtMostOneMatch(right)
    ensures |LeftMerge(left, right)| == |left|
    ensures forall i :: 0 <= i < |left| ==>
      LeftMerge(left, right)[i] == Anchored(left[i].key, (left[i].payload, Lookup(right, left[i].key)))
  {
    if left != [] {
      LeftMergeUnique(left[1..], right);
      MatchesUnique(right, left[0].key);
      var out := LeftMerge(left, right);
      assert out == MergeRow(left[0], right) + LeftMerge(left[1..], right);
      forall i | 0 <= i < |left|
        ensures out[i] == Anchored(left[i].key, (left[i].payload, Lookup(right, left[i].key)))
      {
        if i > 0 {
          assert out[i] == LeftMerge(left[1..], right)[i - 1];
        }
      }
    }
  }
}

=== FILE: ordering.dfy ===
/**
 * Orders used by the pipeline: Python's order on `str` (code-point
 * lexicographic order, which pandas uses to sort group keys) and a
 * generic "insert into a strictly sorted sequence" that builds the
 * sorted list of distinct keys a `groupby` produces.
 */
module Ordering {

  /** Python's `a < b` on strings: lexicographic by code point, a proper prefix first. */
  predicate LexLess(a: string, b: string)
  {
    if |a| == 0 then |b| != 0
    else if |b| == 0 then false
    else a[0] < b[0] || (a[0] == b[0] && LexLess(a[1..], b[1..]))
  }

  lemma {:induction false} LexLessIrreflexive(a: string)
    ensures !LexLess(a, a)
  {
    if |a| != 0 {
      LexLessIrreflexive(a[1..]);
    }
  }

  lemma {:induction false} LexLessTransitive(a: string, b: string, c: string)
    requires LexLess(a, b) && LexLess(b, c)
    ensures LexLess(a, c)
  {
    if |a| != 0 && |b| != 0 && |c| != 0 && a[0] == b[0] && b[0] == c[0] {
      LexLessTransitive(a[1..], b[1..], c[1..]);
    }
  }

  lemma {:induction false} LexLessTotal(a: string, b: string)
    ensures a == b || LexLess(a, b) || LexLess(b, a)
  {
    if |a| != 0 && |b| != 0 && a[0] == b[0] {
      LexLessTotal(a[1..], b[1..]);
      if a[1..] == b[1..] {
        assert a == [a[0]] + a[1..] && b == [b[0]] + b[1..];
      }
    }
  }

  /**
   * Comparing two strings whose first parts have the same length compares
   * the first parts, and only on a tie the rest.
   */
  lemma {:induction false} LexLessAppend(p: string, q: string, u: string, v: string)
    requires |p| == |q|
    ensures LexLess(p + u, q + v) <==> LexLess(p, q) || (p == q && LexLess(u, v))
  {
    if |p| == 0 {
      assert p + u == u && q + v == v;
    } else {
      assert (p + u)[0] == p[0] && (q + v)[0] == q[0];
      assert (p + u)[1..] == p[1..] + u && (q + v)[1..] == q[1..] + v;
      LexLessAppend(p[1..], q[1..], u, v);
      assert p == q <==> p[0] == q[0] && p[1..] == q[1..] by {
        if p[0] == q[0] && p[1..] == q[1..] {
          assert p == [p[0]] + p[1..] && q == [q[0]] + q[1..];
        }
      }
    }
  }

  /** `lt` is irreflexive, transitive and total on distinct values. */
  ghost predicate StrictTotalOrder<T(!new)>(lt: (T, T) -> bool)
  {
    && (forall a :: !lt(a, a))
    && (forall a, b, c :: lt(a, b) && lt(b, c) ==> lt(a, c))
    && (forall a, b :: a == b || lt(a, b) || lt(b, a))
  }

  lemma LexLessIsStrictTotalOrder()
    ensures StrictTotalOrder(LexLess)
  {
    forall a ensures !LexLess(a, a) {
      LexLessIrreflexive(a);
    }
    forall a, b, c | LexLess(a, b) && LexLess(b, c) ensures LexLess(a, c) {
      LexLessTransitive(a, b, c);
    }
    forall a, b ensures a == b || LexLess(a, b) || LexLess(b, a) {
      LexLessTotal(a, b);
    }
  }

  /** Every earlier element is below every later one: sorted, and no value twice. */
  predicate StrictlySorted<T>(s: seq<T>, lt: (T, T) -> bool)
  {
    forall i, j :: 0 <= i < j < |s| ==> lt(s[i], s[j])
  }

  /** Adds `x` to the sorted sequence `s` at its place, unless it is already there. */
  function InsertSorted<T(==, !new)>(s: seq<T>, x: T, lt: (T, T) -> bool): (r: seq<T>)
    ensures forall y :: y in r <==> y in s || y == x
    ensures |r| <= |s| + 1
  {
    if s == [] then [x]
    else if x == s[0] then s
    else if lt(x, s[0]) then [x] + s
    else [s[0]] + InsertSorted(s[1..], x, lt)
  }

  lemma {:induction false} InsertSortedKeepsOrder<T(!new)>(s: seq<T>, x: T, lt: (T, T) -> bool)
    requires StrictTotalOrder(lt) && StrictlySorted(s, lt)
    ensures StrictlySorted(InsertSorted(s, x, lt), lt)
  {
    if s != [] && x != s[0] && !lt(x, s[0]) {
      assert StrictlySorted(s[1..], lt);
      InsertSortedKeepsOrder(s[1..], x, lt);
      var t := InsertSorted(s[1..], x, lt);
      assert lt(s[0], x);
      forall y | y in t ensures lt(s[0], y) {
        if y != x {
          var k :| 0 <= k < |s[1..]| && s[1..][k] == y;
          assert s[k + 1] == y;
        }
      }
      var r := [s[0]] + t;
      forall i, j | 0 <= i < j < |r| ensures lt(r[i], r[j]) {
        if i == 0 {
          assert r[j] == t[j - 1] && r[j] in t;
        } else {
          assert r[i] == t[i - 1] && r[j] == t[j - 1];
        }
      }
    }
  }

  /**
   * The distinct values of `xs`, ascending under `lt`: what pandas' sorted
   * group index holds.
   */
  function SortedDistinct<T(==, !new)>(xs: seq<T>, lt: (T, T) -> bool): (r: seq<T>)
    ensures forall y :: y in r <==> y in xs
  {
    if xs == [] then []
    else InsertSorted(SortedDistinct(xs[..|xs| - 1], lt), xs[|xs| - 1], lt)
  }

  lemma {:induction false} SortedDistinctSorted<T(!new)>(xs: seq<T>, lt: (T, T) -> bool)
    requires StrictTotalOrder(lt)
    ensures StrictlySorted(SortedDistinct(xs, lt), lt)
  {
    if xs != [] {
      SortedDistinctSorted(xs[..|xs| - 1], lt);
      InsertSortedKeepsOrder(SortedDistinct(xs[..|xs| - 1], lt), xs[|xs| - 1], lt);
    }
  }

  /** A strictly sorted sequence holds each value once. */
  lemma SortedIsDistinct<T(!new)>(s: seq<T>, lt: (T, T) -> bool)
    requires StrictTotalOrder(lt) && StrictlySorted(s, lt)
    ensures forall i, j :: 0 <= i < j < |s| ==> s[i] != s[j]
  {
    forall i, j | 0 <= i < j < |s| ensures s[i] != s[j] {
      assert lt(s[i], s[j]);
    }
  }
}

=== FILE: ranking.dfy ===
/**
 * Ordering items by a weight, heaviest first, and keeping the first few:
 * `sort_values(ascending=False)` followed by `index[:n]`.
 */
module Ranking {
  /** Weights never increase along `s`. */
  predicate NonIncreasing<T>(s: seq<T>, w: T -> int)
  {
    forall i, j :: 0 <= i < j < |s| ==> w(s[i]) >= w(s[j])
  }

  /** Places `x` before the first item that weighs strictly less, so ties keep their order. */
  function InsertDescending<T(==)>(s: seq<T>, x: T, w: T -> int): (r: seq<T>)
    ensures multiset(r) == multiset(s) + multiset{x}
  {
    if s == [] || w(x) >= w(s[0]) then [x] + s
    else
      assert s == [s[0]] + s[1..];
      [s[0]] + InsertDescending(s[1..], x, w)
  }

  lemma {:induction false} InsertDescendingKeepsOrder<T>(s: seq<T>, x: T, w: T -> int)
    requires NonIncreasing(s, w)
    ensures NonIncreasing(InsertDescending(s, x, w), w)
  {
    if s != [] && w(x) < w(s[0]) {
      var t := InsertDescending(s[1..], x, w);
      InsertDescendingKeepsOrder(s[1..], x, w);
      forall y | y in t ensures w(s[0]) >= w(y) {
        assert y in multiset(t);
        if y != x {
          assert y in multiset(s[1..]);
          var k :| 0 <= k < |s[1..]| && s[1..][k] == y;
          assert s[k + 1] == y;
        }
      }
      var r := [s[0]] + t;
      forall i, j | 0 <= i < j < |r| ensures w(r[i]) >= w(r[j]) {
        if i == 0 {
          assert r[j] == t[j - 1];
          assert r[j] in t;
        }
      }
    }
  }

  /** A stable sort by non-increasing weight. */
  function SortDescending<T(==)>(xs: seq<T>, w: T -> int): (r: seq<T>)
    ensures multiset(r) == multiset(xs)
  {
    if xs == [] then []
    else
      assert xs == [xs[0]] + xs[1..];
      InsertDescending(SortDescending(xs[1..], w), xs[0], w)
  }

  lemma {:induction false} SortDescendingSorted<T>(xs: seq<T>, w: T -> int)
    ensures NonIncreasing(SortDescending(xs, w), w)
  {
    if xs != [] {
      SortDescendingSorted(xs[1..], w);
      InsertDescendingKeepsOrder(SortDescending(xs[1..], w), xs[0], w);
    }
  }

  /** The first `n` items, or all of them when there are fewer. */
  function Top<T>(s: seq<T>, n: nat): (r: seq<T>)
    ensures |r| == if |s| < n then |s| else n
    ensures r == s[..|r|]
  {
    if |s| <= n then s else s[..n]
  }

  /** In a sorted sequence without repeats, nothing left out of the top `n` outweighs anything kept. */
  lemma TopKeepsHeaviest<T(!new)>(s: seq<T>, n: nat, w: T -> int)
    requires NonIncreasing(s, w)
    requires forall i, j :: 0 <= i < j < |s| ==> s[i] != s[j]
    ensures forall x, k :: x in s && x !in Top(s, n) && k in Top(s, n) ==> w(x) <= w(k)
  {
    var top := Top(s, n);
    forall x, k | x in s && x !in top && k in top ensures w(x) <= w(k) {
      var m :| 0 <= m < |s| && s[m] == x;
      var p :| 0 <= p < |top| && top[p] == k;
      assert s[p] == k;
    }
  }
}

=== FILE: wrappers.dfy ===
/** The optional-value and result types shared by the whole model. */
module Wrappers {

  /** A value that may be absent: pandas' NaN / NaT / SQL NULL. */
  datatype Option<+T> = None | Some(value: T)

  /** The outcome of a pipeline stage that can raise. */
  datatype Result<+T, +E> = Ok(value: T) | Err(error: E)
}
